=== FILE: README.md ===
# Call-site rewriter: a Dafny model

The tool rewrites compiled Java methods so that a cached-method call goes
through `invokedynamic`. The idiom it looks for is:

    Test.sites(context).some_method.call(context, caller, target, args...)

It has three parts:

1. an `invokestatic Test.sites(LContext;)LTest$Sites;` call that produces the
   per-class `Sites` holder;
2. a `getfield` on that holder, which reads the `CachedMethod` for one call site;
3. an `invokeinterface CachedMethod.call`.

The tool runs an abstract interpreter over each method body, the same way
ASM's `Analyzer` drives `Interpreter`. The interpreter's values extend the
basic verifier's values with three special ones:

- `NONE`;
- `SITES`;
- `MethodName(name)`.

While the analysis runs, the interpreter collects deferred edits:

- `current` holds the unfinished group of edits for the idiom being matched;
  Java `null` means no group is open;
- `pending` holds the groups of completed idioms.

Once the analysis is over, `visitEnd` runs `pending` against the instruction
list once. The acquiring call becomes `POP`, the `getfield` is removed, and
the `call` becomes an `invokedynamic` named after the field. That
`invokedynamic` is bootstrapped by `RT.bsm` with the static argument
`"hello"`.

Modules:

- `Wrappers`: `Option` (`None` stands for Java `null`) and `Result`.
- `Bytecode`:
  - instructions with stable identities and the two deferred edits (remove, set);
  - the `InsnList` class and `Accept`, which runs the edits in order;
  - an order-independent reference meaning of an edit list (`Rewrite`),
    proved equal to in-order application.
- `Lattice`: the abstract values, `getSize` and `merge`.
- `Interp`:
  - the transfer functions of `AbstractExecutionInterpreter` as pure
    functions over the pair (`pending`, `current`);
  - the class itself, whose methods update those two fields in place and
    are proved against the transfer functions;
  - the shape invariant of the accumulated edits. Each group is
    "replace by POP", then removals, then "replace by invokedynamic";
    targets are distinct.
- `Analysis`:
  - a straight-line frame executor (`Step`, `Run`) and the resulting edits
    (`Edits`) and rewritten body (`Transform`);
  - the imperative driver (`Execute`, `Analyze`, `VisitEnd`) proved against them.
- `AnalysisProperties`: what one whole analysis guarantees about the edits
  and the rewritten body.
- `Sample`: the `main` method of `src/Test.java`, analysed and rewritten in full.
- `MergeFinding`: the join applied to frames, as written and corrected.

A join is evidently meant to yield a basic value, as `BasicInterpreter`'s
own merge does. The code returns `Values.NONE`, which is not a basic value.
The model follows the code; see Findings.

## Model

| member | source | states |
|---|---|---|
| Lattice.Size | src/Tool.java:38-58 | every special value (NONE, SITES, a method name) occupies exactly one slot |
| Lattice.Merge | src/Tool.java:153-156 | the join ignores both arguments and always yields NONE |
| Lattice.MergeForgetsEverything | src/Tool.java:153-156 | no SITES or method name survives a join, and the joined value is not a basic value |
| Lattice.MergeConservative | src/Tool.java:153-156 | corrected join: always a basic value, equal basic values are kept, anything else becomes the baseline's uninitialized value |
| Interp.AsBasicValue | src/Tool.java:73-78 | succeeds exactly on basic values, returning that value; a special value fails with "invalid pattern" at the instruction |
| Interp.NewValue | src/Tool.java:80-83 | the value seeded into a local is a basic value |
| Interp.NewOperation | src/Tool.java:85-88 | a value-producing instruction without operands yields a basic value |
| Interp.CopyOperation | src/Tool.java:90-93 | a load or dup succeeds exactly when the copied value is basic and returns it unchanged; otherwise "invalid pattern" |
| Interp.UnaryTransfer | src/Tool.java:95-103 | GETFIELD on SITES yields MethodName(field name) and appends "remove this getfield" to current, failing if current is null; any other unary operation succeeds exactly on a basic operand, yields a basic value and leaves pending and current unchanged; otherwise "invalid pattern" |
| Interp.BinaryOperation | src/Tool.java:105-108 | succeeds exactly when both operands are basic and then yields a basic value; otherwise "invalid pattern" |
| Interp.TernaryOperation | src/Tool.java:110-113 | succeeds exactly when all three operands are basic and then yields a basic value; otherwise "invalid pattern" |
| Interp.DelegateNary | src/Tool.java:145 | a delegated call succeeds exactly when every argument is basic, and then yields a basic value |
| Interp.IsAcquire | src/Tool.java:117-121 | the acquiring call is an `invokestatic` of `Test.sites` with descriptor `(LContext;)LTest$Sites;` |
| Interp.CompletesPattern | src/Tool.java:127-133 | a completed pattern is an `invokeinterface CachedMethod.call` with at least one argument whose receiver is a method name |
| Interp.BSM | src/Tool.java:65-67 | the bootstrap handle: `REF_invokeStatic` of `RT.bsm` with its full descriptor, not an interface method |
| Interp.Indy | src/Tool.java:136-139 | the replacement is an invokedynamic named after the field, with the replaced call's own descriptor, argument count and result, bootstrapped by RT.bsm with the argument "hello" |
| Interp.NaryTransfer | src/Tool.java:115-146 | the Test.sites call yields SITES and sets current to [replace by POP]; a CachedMethod.call whose receiver is a method name appends "replace by invokedynamic(name, same descriptor, RT.bsm, hello)" to current, moves current onto pending, resets current to null and yields a reference, failing if current was null; every other call behaves like DelegateNary and leaves both accumulators unchanged |
| Interp.AbstractExecutionInterpreter.constructor | src/Tool.java:60-71 | a new interpreter has an empty pending chain and a null current |
| Interp.AbstractExecutionInterpreter.UnaryOperation | src/Tool.java:95-103 | the in-place update of pending/current and the returned value are those of UnaryTransfer; on failure the fields are unchanged |
| Interp.AbstractExecutionInterpreter.NaryOperation | src/Tool.java:115-146 | the in-place update of pending/current and the returned value are those of NaryTransfer; on failure the fields are unchanged |
| Interp.ScanAppend | src/Tool.java:99-141 | checking the group shape of a concatenation is checking each part in turn |
| Interp.UnaryKeepsGrouped | src/Tool.java:97-101 | a successful unary step keeps pending a sequence of complete groups and current an open group prefix |
| Interp.NaryKeepsGrouped | src/Tool.java:117-143 | a successful call keeps pending a sequence of complete groups and current an open group prefix |
| Interp.GroupedBalance | src/Tool.java:123-141 | in well-shaped edits, each open group adds one replace-by-POP over the replace-by-invokedynamic count, so complete groups have equal numbers of both |
| Interp.BrokenStays | src/Tool.java:123-141 | once the edit sequence is ill-shaped, no continuation repairs it |
| Interp.UnaryTargets | src/Tool.java:97-101 | a unary step keeps the targets of all tracked edits distinct and adds at most the current instruction; a new edit is the removal of that instruction, which is a GETFIELD |
| Interp.NaryTargets | src/Tool.java:117-143 | a call keeps the targets of all tracked edits distinct and adds at most the current instruction; a new edit is "replace by POP" on an acquiring call or "replace by the invokedynamic built from it" on a cached-method call |
| Bytecode.Removed | src/Tool.java:99 | removing a node keeps exactly the nodes with a different identity |
| Bytecode.RemovedIds | src/Tool.java:99 | after removing t, the identities are the old ones minus t |
| Bytecode.RemovedAbsent | src/Tool.java:99 | removing an absent node changes nothing |
| Bytecode.RemovedUnique | src/Tool.java:99 | removal keeps identities unique |
| Bytecode.RemovedLength | src/Tool.java:99 | removing a present node from a list with unique identities shortens it by exactly one |
| Bytecode.RemovedAppend | src/Tool.java:99 | removal distributes over concatenation |
| Bytecode.RemovedSplice | src/Tool.java:99 | removing a uniquely identified node from the middle leaves its neighbours joined in order |
| Bytecode.Replaced | src/Tool.java:123 | set keeps the length, puts the new instruction at the target's position and touches no other position |
| Bytecode.ReplacedSplice | src/Tool.java:139 | replacing a uniquely identified node changes only that slot |
| Bytecode.ApplyEdits | src/Tool.java:191 | the edits are run once each in discovery order; its meaning is stated by ApplyEditsIsRewrite and ApplyEditsLength |
| Bytecode.EditFor | src/Tool.java:191 | the edit found for a node addresses that node, and none is found exactly when no edit addresses it |
| Bytecode.RewriteNoEdits | src/Tool.java:191 | an empty pending chain leaves the body unchanged |
| Bytecode.ApplyThenRewrite | src/Tool.java:191 | applying the first edit and then the rest equals the reference meaning of the whole list, when no later edit shares its target |
| Bytecode.ApplyEditsIsRewrite | src/Tool.java:191 | with distinct targets, running the edits in discovery order equals the order-independent reference rewrite: each edit acts once, only on its target |
| Bytecode.ApplyEditsLength | src/Tool.java:191 | with distinct targets present in the body, the rewritten body is shorter by exactly the number of removals and keeps identities unique |
| Bytecode.RewriteKeepsUntouched | src/Tool.java:191 | nodes no edit addresses survive unchanged and in their original order |
| Bytecode.UntouchedAppend | src/Tool.java:191 | the untouched nodes of a concatenation are those of each part |
| Bytecode.InsnList.constructor | src/Tool.java:191 | the list holds the given nodes |
| Bytecode.InsnList.Remove | src/Tool.java:99 | the list in place becomes Removed of its old contents |
| Bytecode.InsnList.Set | src/Tool.java:123 | the list in place becomes Replaced of its old contents |
| Bytecode.Accept | src/Tool.java:191 | running the pending chain on the list leaves it equal to the in-order application of the edits |
| Analysis.EntryFrame | src/Tool.java:80-83 | at entry every local holds the seeded basic value and the stack is empty |
| Analysis.Step | src/Tool.java:184 | one instruction of the analysis, handed to the interpreter operation ASM uses for its shape; the frame keeps its number of locals |
| Analysis.Run | src/Tool.java:184 | the instructions in order, stopping at the first failure or after a return or `athrow`; running past the last instruction fails, so a successful run has executed a return or a throw; the frame keeps its number of locals |
| Analysis.Transform | src/Tool.java:184-191 | analysis followed by the single application of the completed edits; its properties are stated by EditPass and IncompletePatternLeavesBody |
| Analysis.ExecuteUnary | src/Tool.java:95-103 | one unary instruction run through the interpreter object matches UnaryStep, frame and accumulators alike; on failure the accumulators are unchanged |
| Analysis.ExecuteNary | src/Tool.java:115-146 | one call run through the interpreter object matches NaryStep, frame and accumulators alike; on failure the accumulators are unchanged |
| Analysis.Execute | src/Tool.java:184 | one instruction run through the interpreter object matches Step; on failure the accumulators are unchanged |
| Analysis.Analyze | src/Tool.java:181-187 | the analyzer loop over a body matches Run, stopping at the first failure or after a return or `athrow`, and failing when it runs off the end |
| Analysis.VisitEnd | src/Tool.java:178-195 | after a successful analysis the list becomes Transform of the body (an empty body, as in an abstract or native method, succeeds and stays empty); after a failed one the failure is reported and the list is untouched |
| AnalysisProperties.Progress | src/Tool.java:117-143 | how far a prefix of the body has come through acquire, then GETFIELD, then call; never more than three |
| AnalysisProperties.ProgressGrows | src/Tool.java:117-143 | progress never goes back as the body is read further |
| AnalysisProperties.AcquireWitness | src/Tool.java:117-121 | progress 1 is backed by an acquiring call in the prefix |
| AnalysisProperties.ReadWitness | src/Tool.java:97-100 | progress 2 is backed by a GETFIELD after an acquiring call |
| AnalysisProperties.PatternWitness | src/Tool.java:127-140 | progress 3 is backed by a cached-method call after such a GETFIELD |
| AnalysisProperties.StepOrigin | src/Tool.java:95-146 | one step keeps SITES out of the frame before an acquiring call, method names out before a following GETFIELD, and pending empty before a whole pattern |
| AnalysisProperties.OriginGrows | src/Tool.java:184 | the origin invariant, once true, stays true as further instructions execute |
| AnalysisProperties.RunOrigin | src/Tool.java:184 | the same for a whole run, measured on everything executed so far |
| AnalysisProperties.PatternPrecedesEdits | src/Tool.java:62-140 | a successful analysis completes an edit only if the body holds an acquiring call at i, a GETFIELD at j and a cached-method call at k with i < j < k |
| AnalysisProperties.PatternPositions | src/Tool.java:117-140 | the nested pattern predicate gives the three positions in order |
| AnalysisProperties.EmptyBodyUnchanged | src/Tool.java:181-191 | the empty body of an abstract or native method schedules no edit and is written unchanged |
| AnalysisProperties.IncompletePatternLeavesBody | src/Tool.java:62-191 | in a body without acquire-then-GETFIELD-then-call, a successful analysis schedules no edit and the body comes out unchanged |
| AnalysisProperties.SpecialStoreAborts | src/Tool.java:73-93 | storing SITES or a method name into a local aborts the analysis with "invalid pattern" |
| AnalysisProperties.StepKeepsGrouped | src/Tool.java:95-146 | every analysis step keeps the group shape of pending and current |
| AnalysisProperties.StepTargets | src/Tool.java:95-146 | every analysis step keeps tracked targets distinct, adds at most its own instruction, and any new edit addresses that instruction with the kind it is meant for |
| AnalysisProperties.RunKeepsInvariants | src/Tool.java:184 | a whole analysis keeps the group shape and distinct targets drawn from the body, and every new edit addresses a body instruction of its kind |
| AnalysisProperties.EditsAddressBody | src/Tool.java:99-139 | every completed edit addresses an instruction of the body: POP replaces an acquiring call, a removal hits a GETFIELD, an invokedynamic replaces a cached-method call and is built from that call |
| AnalysisProperties.NamesReadGrows | src/Tool.java:184 | a method name already read stays read as further instructions execute |
| AnalysisProperties.StepNames | src/Tool.java:95-146 | after one step every MethodName in the frame and every scheduled invokedynamic carries the name of a field some GETFIELD executed so far reads |
| AnalysisProperties.RunNames | src/Tool.java:184 | the same for a whole run, measured on everything executed so far |
| AnalysisProperties.EditsNameRead | src/Tool.java:97-139 | every invokedynamic an analysis schedules is named after a field that a GETFIELD of the body reads |
| AnalysisProperties.EditsGrouped | src/Tool.java:115-146 | the edits of a successful analysis have distinct targets inside the body and form closed groups, as many POP replacements as invokedynamic replacements |
| AnalysisProperties.EditPass | src/Tool.java:184-191 | the edits of a successful analysis are complete groups with distinct targets inside the body, each addressing an instruction of its kind (acquire → POP, GETFIELD removed, call → its invokedynamic), every invokedynamic named after a field a GETFIELD of the body reads, as many POP replacements as invokedynamic replacements; the rewritten body is their reference rewrite, shorter by the number of removals, with every unaddressed node kept in order |
| MergeFinding.MergeFrames | src/Tool.java:153-156 | each local and each stack slot of a joined frame is the join of the two incoming ones |
| MergeFinding.MergedLocalAborts | src/Tool.java:153-156 | as written, loading any local after a join aborts with "invalid pattern", even when both sides held the same basic value |
| MergeFinding.ConservativeMergeLoads | src/Tool.java:153-156 | with the corrected join a load after a join succeeds with a basic value, which is the common one when both sides agreed |
| Sample.SampleEdits | src/Test.java:14-20 | analysing Test.main schedules exactly [acquire → POP, remove the getfield, call → invokedynamic some_method] |
| Sample.MainBodyWellFormed | src/Test.java:14-20 | every instruction of the compiled `main` has the shape its opcode calls for |
| Sample.SampleReplaceAcquire | src/Test.java:18 | the acquiring call becomes POP in place |
| Sample.SampleRemoveRead | src/Test.java:18 | the getfield disappears and its neighbours close up |
| Sample.SampleReplaceCall | src/Test.java:18 | the cached-method call becomes the invokedynamic in place |
| Sample.SampleApply | src/Test.java:18 | applying the three edits yields the rewritten body |
| Sample.SampleRewrite | src/Test.java:14-20 | the rewritten Test.main is the expected body, one instruction shorter, with no getfield left |
| Sample.FallingOffFails | src/Tool.java:184 | a body whose only instruction pushes `null` runs off its end and the analysis fails |
| Sample.ThrowEndsBody | src/Tool.java:184 | an `athrow` ends the body: the `pop` after it is never executed and nothing is scheduled |

## Left out

- `main` (src/Tool.java:159-203) is not modelled: file reading and writing and the `ClassReader`/`ClassWriter` plumbing. `visitEnd` starts from the method's instructions and its maximum number of locals.
- ASM's `Analyzer` fixed point is left out. The model executes one straight-line block in order and stops after a return or an `athrow`; like ASM's analyzer, it fails when execution can run past the last instruction of a non-empty body. An empty body (an abstract or native method) is not executed: its analysis succeeds with no edits. Jumps, exception handlers, subroutines and re-visiting instructions are not modelled. So `merge` is never reached by the driver; it is studied on its own in `MergeFinding`.
- `BasicInterpreter`'s type inference is left out. A basic value is an opaque token saying where it came from. The baseline's own type errors are not modelled. Stack underflow and an out-of-range local are modelled together as one analyzer failure.
- AnalysisProperties.IncompletePatternLeavesBody and AnalysisProperties.PatternPrecedesEdits speak only of analyses that succeed. A partial pattern whose holder or method name is stored, returned or passed to another call aborts the analysis with "invalid pattern" (AnalysisProperties.SpecialStoreAborts shows the store case). So a partial pattern leaves the body untouched only when its value is consumed by the pattern or discarded.
- Not every completed group has exactly one removal. An acquiring call inside an open pattern restarts `current`, so a group can hold zero or two removals. The general statement is that the body shrinks by the number of removals.
- Instructions without a `Code` shape are not modelled: NOP, SWAP, DUP_X1, DUP_X2, DUP2 and its variants, POP2, IINC and MULTIANEWARRAY. ASM's pseudo-instruction nodes (`LabelNode`, `LineNumberNode`, `FrameNode`) are left out of the bodies as well: they never reach the interpreter, so `Sample.MainBody` omits the labels and line numbers javac emits. Overflowing the method's maximum stack size is not checked either.
- `Bytecode.WellFormed` ties opcodes to shapes, and the sample body is proved well formed. The analysis does not require it: a `UnaryOp` carrying GETFIELD's opcode is treated as an ordinary unary operation.
- Values of size 2 (`long`, `double`) are not modelled; every value takes one slot.
- Descriptor parsing is left out. An invocation carries its argument count and whether it returns a value.
- `returnOperation` does nothing in the source. Its slot in the execution of a return is modelled as no effect.
- `RT.java` (the bootstrap method) is not part of this model beyond the constant handle passed to `invokedynamic`.
- `CachedMethod` is not part of this model. In `Sample`, its `call` descriptor is taken to have five object arguments and an object result.
- In the model, a replacement instruction keeps the identity of the node it replaces. The source creates a fresh node, but no later edit addresses it.
- Bytecode.InsnList.Remove and Bytecode.InsnList.Set on a node not in the list leave the list unchanged. ASM's list would be corrupted there. `AnalysisProperties.EditPass` proves this never happens for the edits an analysis schedules.
- Lattice.Size is stated only for the special values. The basic values' sizes belong to the baseline.
- AnalysisProperties.EditPass does not claim that the rewrite preserves the stack depth at each instruction.
- `Interp.AbstractExecutionInterpreter` represents the `Consumer<InsnList>` chains as the lists of edits they would perform. A null `current` that would be dereferenced becomes the failure `NullCurrent`. In the source this is a `NullPointerException`, reported through `AnalyzerException` as an `AssertionError`.

## Findings

| source | as written | input that shows it | evidently intended | confidence | as-written member | corrected member |
|---|---|---|---|---|---|---|
| src/Tool.java:153-156 | `merge` returns `NONE` for every pair of values, and `NONE` is not a basic value | a method whose two branches both leave the same basic value in local 0 and which loads local 0 after they join: the load hands `NONE` to `copyOperation`, which aborts with "invalid pattern" | a join yielding a basic value (the common value when both sides agree, the baseline's uninitialized value otherwise), so analysis of methods with control flow goes on | medium, not executed | MergeFinding.MergedLocalAborts | MergeFinding.ConservativeMergeLoads |

=== FILE: analysis.dfy ===
/** Analysis of one method body followed by the single edit pass: the
    interpreter is run over the instructions in order, and the edits it
    completed are then applied to the instruction list. */
module Analysis {
  import opened Wrappers
  import opened Bytecode
  import opened Lattice
  import opened Interp

  /** Abstract locals and operand stack (top of stack last). */
  datatype Frame = Frame(locals: seq<Value>, stack: seq<Value>)

  datatype State = State(schedule: Schedule, frame: Frame)

  /** At method entry every local holds a basic value and the stack is empty. */
  function EntryFrame(maxLocals: nat): (f: Frame)
    ensures |f.locals| == maxLocals && f.stack == []
    ensures forall i :: 0 <= i < maxLocals ==> f.locals[i] == NewValue(i)
  {
    Frame(seq(maxLocals, i requires 0 <= i < maxLocals => NewValue(i)), [])
  }

  /** Number of stack values an invocation consumes, receiver included. */
  function Consumed(code: Code): nat
    requires code.Invoke? || code.InvokeDynamic?
  {
    if code.Invoke? && code.opcode != INVOKESTATIC then code.argCount + 1 else code.argCount
  }

  /** A return or an `athrow`: control does not pass to the next instruction. */
  predicate EndsBlock(insn: Insn) {
    insn.code.Return? || insn.code.VoidReturn? || (insn.code.UnaryOp? && insn.code.opcode == ATHROW)
  }

  /** Instructions whose effect depends on the interpreter's accumulators. */
  predicate UsesAccumulators(code: Code) {
    code.UnaryOp? || code.GetField? || code.Return? || code.Invoke? || code.InvokeDynamic?
  }

  function Pushed(stack: seq<Value>, v: Value, pushes: bool): seq<Value> {
    stack + if pushes then [v] else []
  }

  /** The instructions the baseline handles alone: constants, local and
      stack shuffling, binary and ternary operations, and `return`. */
  function FrameStep(f: Frame, insn: Insn): Result<Frame, Failure>
    requires !UsesAccumulators(insn.code)
  {
    var locals := f.locals;
    var stack := f.stack;
    var n := |stack|;
    match insn.code
    case Constant(_) =>
      Ok(Frame(locals, stack + [NewOperation(insn)]))
    case VarLoad(_, k) =>
      if k >= |locals| then Err(AnalyzerFailure(insn.id))
      else (match CopyOperation(insn, locals[k])
        case Err(e) => Err(e)
        case Ok(v) => Ok(Frame(locals, stack + [v])))
    case VarStore(_, k) =>
      if n < 1 || k >= |locals| then Err(AnalyzerFailure(insn.id))
      else (match CopyOperation(insn, stack[n - 1])
        case Err(e) => Err(e)
        case Ok(v) => Ok(Frame(locals[k := v], stack[..n - 1])))
    case Dup =>
      if n < 1 then Err(AnalyzerFailure(insn.id))
      else (match CopyOperation(insn, stack[n - 1])
        case Err(e) => Err(e)
        case Ok(v) => Ok(Frame(locals, stack + [v])))
    case Pop =>
      if n < 1 then Err(AnalyzerFailure(insn.id))
      else Ok(Frame(locals, stack[..n - 1]))
    case BinaryOp(_, pushes) =>
      if n < 2 then Err(AnalyzerFailure(insn.id))
      else (match BinaryOperation(insn, stack[n - 2], stack[n - 1])
        case Err(e) => Err(e)
        case Ok(v) => Ok(Frame(locals, Pushed(stack[..n - 2], v, pushes))))
    case TernaryOp(_) =>
      if n < 3 then Err(AnalyzerFailure(insn.id))
      else (match TernaryOperation(insn, stack[n - 3], stack[n - 2], stack[n - 1])
        case Err(e) => Err(e)
        case Ok(_) => Ok(Frame(locals, stack[..n - 3])))
    case VoidReturn =>
      Ok(f)
  }

  /** An instruction handed to the unary operation: the top of the stack is
      popped, and the result pushed when the instruction produces one. */
  function UnaryStep(st: State, insn: Insn, pushes: bool): Result<State, Failure> {
    var n := |st.frame.stack|;
    if n < 1 then Err(AnalyzerFailure(insn.id))
    else match UnaryTransfer(st.schedule, insn, st.frame.stack[n - 1])
      case Err(e) => Err(e)
      case Ok(t) => Ok(State(t.schedule, Frame(st.frame.locals, Pushed(st.frame.stack[..n - 1], t.value, pushes))))
  }

  /** An invocation: its arguments (receiver first) are popped and handed to
      the n-ary operation. */
  function NaryStep(st: State, insn: Insn): Result<State, Failure>
    requires insn.code.Invoke? || insn.code.InvokeDynamic?
  {
    var n := |st.frame.stack|;
    var k := Consumed(insn.code);
    if n < k then Err(AnalyzerFailure(insn.id))
    else match NaryTransfer(st.schedule, insn, st.frame.stack[n - k..])
      case Err(e) => Err(e)
      case Ok(t) => Ok(State(t.schedule, Frame(st.frame.locals, Pushed(st.frame.stack[..n - k], t.value, insn.code.returnsValue))))
  }

  /** One instruction: its stack effect and the interpreter operation it is
      handed to. A value returned by the method is handed to the unary
      operation first. */
  function Step(st: State, insn: Insn): (r: Result<State, Failure>)
    ensures r.Ok? ==> |r.value.frame.locals| == |st.frame.locals|
  {
    match insn.code
    case UnaryOp(_, pushes) => UnaryStep(st, insn, pushes)
    case GetField(_, _, _) => UnaryStep(st, insn, true)
    case Return(_) => UnaryStep(st, insn, false)
    case Invoke(_, _, _, _, _, _) => NaryStep(st, insn)
    case InvokeDynamic(_, _, _, _, _, _) => NaryStep(st, insn)
    case _ =>
      match FrameStep(st.frame, insn)
      case Err(e) => Err(e)
      case Ok(f) => Ok(State(st.schedule, f))
  }

  /** The instructions in order; control does not pass a return or a throw,
      and running past the last instruction is a failure. */
  function Run(st: State, insns: seq<Insn>): (r: Result<State, Failure>)
    ensures r.Ok? ==> |r.value.frame.locals| == |st.frame.locals|
    ensures r.Ok? ==> exists j :: 0 <= j < |insns| && EndsBlock(insns[j])
    ensures insns == [] ==> r == Err(FallsOffEnd)
    decreases |insns|
  {
    if insns == [] then Err(FallsOffEnd)
    else match Step(st, insns[0])
      case Err(e) => Err(e)
      case Ok(st') => if EndsBlock(insns[0]) then Ok(st') else Run(st', insns[1..])
  }

  /** The completed edits of a whole analysis of a method body. An empty
      body (an abstract or native method) is not executed at all, so the
      analysis succeeds and schedules nothing. */
  function Edits(insns: seq<Insn>, maxLocals: nat): Result<seq<Edit>, Failure> {
    if insns == [] then Ok([])
    else match Run(State(Initial, EntryFrame(maxLocals)), insns)
      case Err(e) => Err(e)
      case Ok(st) => Ok(st.schedule.pending)
  }

  /** Analysis, then the completed edits applied once to the body. */
  function Transform(insns: seq<Insn>, maxLocals: nat): Result<seq<Insn>, Failure> {
    match Edits(insns, maxLocals)
    case Err(e) => Err(e)
    case Ok(es) => Ok(ApplyEdits(insns, es))
  }

  // ---------------------------------------------------------------------
  // The analyzer loop, driving the interpreter object.

  method ExecuteUnary(interp: AbstractExecutionInterpreter, f: Frame, insn: Insn, pushes: bool) returns (r: Result<Frame, Failure>)
    modifies interp
    ensures r.Ok? ==> UnaryStep(State(old(interp.State()), f), insn, pushes) == Ok(State(interp.State(), r.value))
    ensures r.Err? ==> UnaryStep(State(old(interp.State()), f), insn, pushes) == Err(r.error) && interp.State() == old(interp.State())
  {
    var n := |f.stack|;
    if n < 1 {
      return Err(AnalyzerFailure(insn.id));
    }
    var v := interp.UnaryOperation(insn, f.stack[n - 1]);
    if v.Err? {
      return Err(v.error);
    }
    r := Ok(Frame(f.locals, Pushed(f.stack[..n - 1], v.value, pushes)));
  }

  method ExecuteNary(interp: AbstractExecutionInterpreter, f: Frame, insn: Insn) returns (r: Result<Frame, Failure>)
    requires insn.code.Invoke? || insn.code.InvokeDynamic?
    modifies interp
    ensures r.Ok? ==> NaryStep(State(old(interp.State()), f), insn) == Ok(State(interp.State(), r.value))
    ensures r.Err? ==> NaryStep(State(old(interp.State()), f), insn) == Err(r.error) && interp.State() == old(interp.State())
  {
    var n := |f.stack|;
    var k := Consumed(insn.code);
    if n < k {
      return Err(AnalyzerFailure(insn.id));
    }
    var v := interp.NaryOperation(insn, f.stack[n - k..]);
    if v.Err? {
      return Err(v.error);
    }
    r := Ok(Frame(f.locals, Pushed(f.stack[..n - k], v.value, insn.code.returnsValue)));
  }

  method Execute(interp: AbstractExecutionInterpreter, f: Frame, insn: Insn) returns (r: Result<Frame, Failure>)
    modifies interp
    ensures r.Ok? ==> Step(State(old(interp.State()), f), insn) == Ok(State(interp.State(), r.value))
    ensures r.Err? ==> Step(State(old(interp.State()), f), insn) == Err(r.error) && interp.State() == old(interp.State())
  {
    match insn.code {
      case UnaryOp(_, pushes) => r := ExecuteUnary(interp, f, insn, pushes);
      case GetField(_, _, _) => r := ExecuteUnary(interp, f, insn, true);
      case Return(_) => r := ExecuteUnary(interp, f, insn, false);
      case Invoke(_, _, _, _, _, _) => r := ExecuteNary(interp, f, insn);
      case InvokeDynamic(_, _, _, _, _, _) => r := ExecuteNary(interp, f, insn);
      case _ => r := FrameStep(f, insn);
    }
  }

  method Analyze(interp: AbstractExecutionInterpreter, insns: seq<Insn>, entry: Frame) returns (r: Result<Frame, Failure>)
    modifies interp
    ensures r.Ok? ==> Run(State(old(interp.State()), entry), insns) == Ok(State(interp.State(), r.value))
    ensures r.Err? ==> Run(State(old(interp.State()), entry), insns) == Err(r.error)
  {
    var f := entry;
    var i := 0;
    while i < |insns|
      invariant 0 <= i <= |insns|
      invariant Run(State(old(interp.State()), entry), insns) == Run(State(interp.State(), f), insns[i..])
    {
      assert insns[i..][0] == insns[i] && insns[i..][1..] == insns[i + 1..];
      var step := Execute(interp, f, insns[i]);
      if step.Err? {
        return Err(step.error);
      }
      f := step.value;
      if EndsBlock(insns[i]) {
        return Ok(f);
      }
      i := i + 1;
    }
    r := Err(FallsOffEnd);
  }

  /** Analyse the finished method body, then run the completed edits
      against its instruction list. A failed analysis leaves the list alone. */
  method VisitEnd(list: InsnList, maxLocals: nat) returns (r: Result<(), Failure>)
    modifies list
    ensures Transform(old(list.nodes), maxLocals).Ok? ==>
      r.Ok? && list.nodes == Transform(old(list.nodes), maxLocals).value
    ensures Transform(old(list.nodes), maxLocals).Err? ==>
      r == Err(Transform(old(list.nodes), maxLocals).error) && list.nodes == old(list.nodes)
  {
    if list.nodes == [] {
      return Ok(());
    }
    var interp := new AbstractExecutionInterpreter();
    var analysis := Analyze(interp, list.nodes, EntryFrame(maxLocals));
    if analysis.Err? {
      return Err(analysis.error);
    }
    Accept(interp.pending, list);
    r := Ok(());
  }
}

=== FILE: bytecode.dfy ===
/** Instructions of a method body, the deferred edits the rewriter schedules,
    and how those edits change an instruction list. */
module Bytecode {
  import opened Wrappers

  /** The identity of an instruction node, independent of its position. */
  type InsnId = nat

  // Opcodes, as numbered in section 6.5 of the Java Virtual Machine Specification (SE 8).
  const POP: int := 0x57
  const DUP: int := 0x59
  const RETURN: int := 0xb1
  const GETFIELD: int := 0xb4
  const INVOKESTATIC: int := 0xb8
  const INVOKEINTERFACE: int := 0xb9
  const INVOKEDYNAMIC: int := 0xba
  const ACONST_NULL: int := 0x01
  const LDC: int := 0x12
  const ALOAD: int := 0x19
  const ASTORE: int := 0x3a
  const GETSTATIC: int := 0xb2
  const INVOKEVIRTUAL: int := 0xb6
  const INVOKESPECIAL: int := 0xb7
  const ATHROW: int := 0xbf

  /** Method-handle kind REF_invokeStatic (section 4.4.8 of the same specification). */
  const H_INVOKESTATIC: int := 6

  /** A constant-pool method handle: kind, owner, name, descriptor, interface flag. */
  datatype Handle = Handle(tag: int, owner: string, name: string, desc: string, itf: bool)

  /** The shape of an instruction, grouped by how the analyzer consults the
      interpreter for it. Invocations carry, besides their descriptor, the
      argument count and whether a value is returned, as read off the descriptor. */
  datatype Code =
    | Constant(opcode: int)                                  // pushes a fresh value (newOperation)
    | VarLoad(opcode: int, local: nat)                       // copies a local onto the stack
    | VarStore(opcode: int, local: nat)                      // copies the top of the stack into a local
    | Dup                                                    // duplicates the top of the stack
    | Pop                                                    // discards the top of the stack
    | UnaryOp(opcode: int, pushes: bool)                     // one operand, result pushed or dropped
    | GetField(owner: string, name: string, desc: string)    // reads an instance field
    | BinaryOp(opcode: int, pushes: bool)                    // two operands
    | TernaryOp(opcode: int)                                 // three operands, nothing pushed
    | Invoke(opcode: int, owner: string, name: string, desc: string, argCount: nat, returnsValue: bool)
    | InvokeDynamic(name: string, desc: string, bsm: Handle, tag: string, argCount: nat, returnsValue: bool)
    | Return(opcode: int)                                    // returns a value
    | VoidReturn                                             // returns nothing

  datatype Insn = Insn(id: InsnId, code: Code)

  function Opcode(insn: Insn): int {
    match insn.code
    case Constant(op) => op
    case VarLoad(op, _) => op
    case VarStore(op, _) => op
    case Dup => DUP
    case Pop => POP
    case UnaryOp(op, _) => op
    case GetField(_, _, _) => GETFIELD
    case BinaryOp(op, _) => op
    case TernaryOp(op) => op
    case Invoke(op, _, _, _, _, _) => op
    case InvokeDynamic(_, _, _, _, _, _) => INVOKEDYNAMIC
    case Return(op) => op
    case VoidReturn => RETURN
  }

  /** The opcode decides the shape: only `GetField` carries GETFIELD, only
      `Invoke` the four invocation opcodes and only `InvokeDynamic`
      INVOKEDYNAMIC, as a method body read from a class file has it. */
  predicate WellFormed(insn: Insn) {
    (insn.code.GetField? <==> Opcode(insn) == GETFIELD) &&
    (insn.code.Invoke? <==> Opcode(insn) in {INVOKEVIRTUAL, INVOKESPECIAL, INVOKESTATIC, INVOKEINTERFACE}) &&
    (insn.code.InvokeDynamic? <==> Opcode(insn) == INVOKEDYNAMIC)
  }

  /** A deferred edit, addressed by instruction identity. */
  datatype Edit = Remove(target: InsnId) | Replace(target: InsnId, with: Code)

  function IdSet(s: seq<Insn>): set<InsnId> {
    set x | x in s :: x.id
  }

  /** No two nodes of the list share an identity. */
  predicate UniqueIds(s: seq<Insn>) {
    forall i, j :: 0 <= i < j < |s| ==> s[i].id != s[j].id
  }

  /** No two edits address the same node. */
  predicate DistinctTargets(es: seq<Edit>) {
    forall i, j :: 0 <= i < j < |es| ==> es[i].target != es[j].target
  }

  function TargetSet(es: seq<Edit>): set<InsnId> {
    set e | e in es :: e.target
  }

  lemma DistinctAppendOne(a: seq<Edit>, e: Edit)
    requires DistinctTargets(a) && e.target !in TargetSet(a)
    ensures DistinctTargets(a + [e]) && TargetSet(a + [e]) == TargetSet(a) + {e.target}
  {
    assert forall i :: 0 <= i < |a| ==> a[i] in a;
  }

  lemma DistinctPrefix(a: seq<Edit>, b: seq<Edit>)
    requires DistinctTargets(a + b)
    ensures DistinctTargets(a) && TargetSet(a) <= TargetSet(a + b)
  {
    assert forall i :: 0 <= i < |a| ==> (a + b)[i] == a[i];
  }

  function CountRemoves(es: seq<Edit>): nat {
    if es == [] then 0 else (if es[0].Remove? then 1 else 0) + CountRemoves(es[1..])
  }

  /** `InsnList.remove`: unlinks the node with identity `t`. */
  function Removed(s: seq<Insn>, t: InsnId): (r: seq<Insn>)
    ensures forall x :: x in r <==> x in s && x.id != t
  {
    if s == [] then []
    else if s[0].id == t then Removed(s[1..], t)
    else [s[0]] + Removed(s[1..], t)
  }

  lemma RemovedIds(s: seq<Insn>, t: InsnId)
    ensures IdSet(Removed(s, t)) == IdSet(s) - {t}
  {
    var r := Removed(s, t);
    forall id | id in IdSet(s) - {t} ensures id in IdSet(r) {
      var x :| x in s && x.id == id;
      assert x in r;
    }
  }

  /** Removing an identity the list does not hold changes nothing. */
  lemma {:induction false} RemovedAbsent(s: seq<Insn>, t: InsnId)
    requires t !in IdSet(s)
    ensures Removed(s, t) == s
  {
    if s != [] {
      assert s[0] in s;
      assert IdSet(s[1..]) <= IdSet(s) by {
        forall x | x in s[1..] ensures x in s { }
      }
      RemovedAbsent(s[1..], t);
    }
  }

  /** In a list with unique identities, no later node shares the head's identity. */
  lemma HeadFresh(s: seq<Insn>)
    requires UniqueIds(s) && s != []
    ensures UniqueIds(s[1..])
    ensures forall x :: x in s[1..] ==> x.id != s[0].id
  {
    forall x | x in s[1..] ensures x.id != s[0].id {
      var k :| 0 <= k < |s[1..]| && s[1..][k] == x;
      assert s[k + 1] == x;
    }
  }

  lemma {:induction false} RemovedUnique(s: seq<Insn>, t: InsnId)
    requires UniqueIds(s)
    ensures UniqueIds(Removed(s, t))
  {
    if s != [] {
      var rest := s[1..];
      HeadFresh(s);
      RemovedUnique(rest, t);
      if s[0].id != t {
        var tail := Removed(rest, t);
        var r := [s[0]] + tail;
        forall i, j | 0 <= i < j < |r| ensures r[i].id != r[j].id {
          assert r[j] == tail[j - 1] && r[j] in tail;
          if i > 0 {
            assert r[i] == tail[i - 1];
          }
        }
      }
    }
  }

  /** With unique identities, removing a present identity drops exactly one node. */
  lemma {:induction false} RemovedLength(s: seq<Insn>, t: InsnId)
    requires UniqueIds(s) && t in IdSet(s)
    ensures |Removed(s, t)| == |s| - 1
  {
    var rest := s[1..];
    HeadFresh(s);
    if s[0].id == t {
      RemovedAbsent(rest, t);
    } else {
      assert t in IdSet(rest) by {
        var x :| x in s && x.id == t;
        var k :| 0 <= k < |s| && s[k] == x;
        assert k > 0 && rest[k - 1] == x;
      }
      RemovedLength(rest, t);
    }
  }

  lemma {:induction false} RemovedAppend(a: seq<Insn>, b: seq<Insn>, t: InsnId)
    ensures Removed(a + b, t) == Removed(a, t) + Removed(b, t)
  {
    if a == [] {
      assert a + b == b;
    } else {
      assert (a + b)[1..] == a[1..] + b;
      RemovedAppend(a[1..], b, t);
    }
  }

  /** Removing the one node with identity `t` from the middle of a list. */
  lemma RemovedSplice(a: seq<Insn>, x: Insn, b: seq<Insn>)
    requires x.id !in IdSet(a) && x.id !in IdSet(b)
    ensures Removed(a + [x] + b, x.id) == a + b
  {
    calc {
      Removed(a + [x] + b, x.id);
    == { RemovedAppend(a + [x], b, x.id); }
      Removed(a + [x], x.id) + Removed(b, x.id);
    == { RemovedAppend(a, [x], x.id); }
      Removed(a, x.id) + Removed([x], x.id) + Removed(b, x.id);
    == { RemovedAbsent(a, x.id); RemovedAbsent(b, x.id); }
      a + Removed([x], x.id) + b;
    == { assert Removed([x], x.id) == Removed([x][1..], x.id) == []; }
      a + b;
    }
  }

  /** `InsnList.set`: puts a node with code `c` in place of the node with
      identity `t`; the new node takes over that identity. */
  function Replaced(s: seq<Insn>, t: InsnId, c: Code): (r: seq<Insn>)
    ensures |r| == |s|
    ensures forall i :: 0 <= i < |s| ==> r[i] == if s[i].id == t then Insn(t, c) else s[i]
  {
    if s == [] then [] else (if s[0].id == t then [Insn(t, c)] else [s[0]]) + Replaced(s[1..], t, c)
  }

  /** Replacing the one node with identity `t` in the middle of a list. */
  lemma ReplacedSplice(a: seq<Insn>, x: Insn, b: seq<Insn>, c: Code)
    requires x.id !in IdSet(a) && x.id !in IdSet(b)
    ensures Replaced(a + [x] + b, x.id, c) == a + [Insn(x.id, c)] + b
  {
    var s := a + [x] + b;
    forall i | 0 <= i < |s| ensures Replaced(s, x.id, c)[i] == (a + [Insn(x.id, c)] + b)[i] {
      if i < |a| {
        assert s[i] == a[i] && a[i] in a;
      } else if i > |a| {
        assert s[i] == b[i - |a| - 1] && b[i - |a| - 1] in b;
      }
    }
  }

  function ApplyEdit(s: seq<Insn>, e: Edit): seq<Insn> {
    match e
    case Remove(t) => Removed(s, t)
    case Replace(t, c) => Replaced(s, t, c)
  }

  /** The edits applied one after the other, in order. */
  function ApplyEdits(s: seq<Insn>, es: seq<Edit>): seq<Insn>
    decreases |es|
  {
    if es == [] then s else ApplyEdits(ApplyEdit(s, es[0]), es[1..])
  }

  /** The first edit of `es` that addresses node `id`, if any. */
  function EditFor(id: InsnId, es: seq<Edit>): (r: Option<Edit>)
    ensures r.Some? ==> r.value in es && r.value.target == id
    ensures r.None? <==> id !in TargetSet(es)
  {
    if es == [] then None
    else if es[0].target == id then Some(es[0])
    else EditFor(id, es[1..])
  }

  /** Reference meaning of an edit list, independent of application order:
      every node is looked up once, and is dropped, replaced or kept. */
  function Rewrite(s: seq<Insn>, es: seq<Edit>): seq<Insn> {
    if s == [] then []
    else
      var head := match EditFor(s[0].id, es)
        case None => [s[0]]
        case Some(Remove(_)) => []
        case Some(Replace(_, c)) => [Insn(s[0].id, c)];
      head + Rewrite(s[1..], es)
  }

  /** The nodes of `s` that no edit of `es` addresses, in their order. */
  function Untouched(s: seq<Insn>, es: seq<Edit>): seq<Insn> {
    if s == [] then []
    else (if s[0].id in TargetSet(es) then [] else [s[0]]) + Untouched(s[1..], es)
  }

  lemma {:induction false} RewriteNoEdits(s: seq<Insn>)
    ensures Rewrite(s, []) == s
  {
    if s != [] {
      RewriteNoEdits(s[1..]);
    }
  }

  /** Applying one edit first and the rest afterwards is the same as looking
      every node up in the whole list, provided no later edit addresses the
      first edit's target. */
  lemma {:induction false} ApplyThenRewrite(s: seq<Insn>, e: Edit, rest: seq<Edit>)
    requires e.target !in TargetSet(rest)
    ensures Rewrite(ApplyEdit(s, e), rest) == Rewrite(s, [e] + rest)
  {
    if s != [] {
      ApplyThenRewrite(s[1..], e, rest);
      var x := s[0];
      assert ([e] + rest)[1..] == rest;
      if x.id == e.target {
        assert EditFor(x.id, [e] + rest) == Some(e);
        assert EditFor(x.id, rest).None?;
        match e {
          case Remove(t) =>
            assert ApplyEdit(s, e) == ApplyEdit(s[1..], e);
          case Replace(t, c) =>
            assert ApplyEdit(s, e) == [Insn(t, c)] + ApplyEdit(s[1..], e);
        }
      } else {
        assert EditFor(x.id, [e] + rest) == EditFor(x.id, rest);
        assert ApplyEdit(s, e) == [x] + ApplyEdit(s[1..], e);
      }
    }
  }

  /** Identity-addressed edits do not invalidate one another: applying them in
      sequence gives the order-independent rewrite, as long as no two edits
      address the same node. */
  lemma {:induction false} ApplyEditsIsRewrite(s: seq<Insn>, es: seq<Edit>)
    requires DistinctTargets(es)
    ensures ApplyEdits(s, es) == Rewrite(s, es)
    decreases |es|
  {
    if es == [] {
      RewriteNoEdits(s);
    } else {
      assert DistinctTargets(es[1..]);
      forall k | 0 <= k < |es[1..]| ensures es[1..][k].target != es[0].target {
        assert es[1..][k] == es[k + 1];
      }
      ApplyEditsIsRewrite(ApplyEdit(s, es[0]), es[1..]);
      ApplyThenRewrite(s, es[0], es[1..]);
      assert [es[0]] + es[1..] == es;
    }
  }

  /** Every addressed node of a list with unique identities is present exactly
      once, so each removal shortens the list by one and each replacement
      keeps its length. */
  lemma {:induction false} ApplyEditsLength(s: seq<Insn>, es: seq<Edit>)
    requires UniqueIds(s) && DistinctTargets(es) && TargetSet(es) <= IdSet(s)
    ensures |ApplyEdits(s, es)| == |s| - CountRemoves(es)
    ensures UniqueIds(ApplyEdits(s, es))
    decreases |es|
  {
    if es != [] {
      var s' := ApplyEdit(s, es[0]);
      if es[0].Remove? {
        RemovedIds(s, es[0].target);
        RemovedUnique(s, es[0].target);
        RemovedLength(s, es[0].target);
      }
      assert IdSet(s') == IdSet(s) - {es[0].target} || IdSet(s') == IdSet(s) by {
        if es[0].Replace? {
          forall id | id in IdSet(s') ensures id in IdSet(s) {
            var x :| x in s' && x.id == id;
            var i :| 0 <= i < |s'| && s'[i] == x;
          }
          forall id | id in IdSet(s) ensures id in IdSet(s') {
            var x :| x in s && x.id == id;
            var i :| 0 <= i < |s| && s[i] == x;
            assert s'[i].id == id;
          }
        }
      }
      assert UniqueIds(s') by {
        if es[0].Replace? {
          forall i, j | 0 <= i < j < |s'| ensures s'[i].id != s'[j].id {
            assert s'[i].id == s[i].id && s'[j].id == s[j].id;
          }
        }
      }
      assert DistinctTargets(es[1..]);
      forall e | e in es[1..] ensures e.target in IdSet(s') {
        var k :| 0 <= k < |es[1..]| && es[1..][k] == e;
        assert es[0].target != es[k + 1].target;
        assert e in es;
      }
      ApplyEditsLength(s', es[1..]);
    }
  }

  /** Each edit touches only its own target: the nodes no edit addresses
      survive, in their original order. */
  lemma {:induction false} RewriteKeepsUntouched(s: seq<Insn>, es: seq<Edit>)
    ensures Untouched(Rewrite(s, es), es) == Untouched(s, es)
  {
    if s != [] {
      RewriteKeepsUntouched(s[1..], es);
      var x := s[0];
      var head := match EditFor(x.id, es)
        case None => [x]
        case Some(Remove(_)) => []
        case Some(Replace(_, c)) => [Insn(x.id, c)];
      assert Rewrite(s, es) == head + Rewrite(s[1..], es);
      UntouchedAppend(head, Rewrite(s[1..], es), es);
    }
  }

  lemma {:induction false} UntouchedAppend(a: seq<Insn>, b: seq<Insn>, es: seq<Edit>)
    ensures Untouched(a + b, es) == Untouched(a, es) + Untouched(b, es)
  {
    if a != [] {
      assert (a + b)[1..] == a[1..] + b;
      UntouchedAppend(a[1..], b, es);
    } else {
      assert a + b == b;
    }
  }

  /** An instruction list, edited in place through identity-addressed
      `remove` and `set`. */
  class InsnList {
    var nodes: seq<Insn>

    constructor (nodes: seq<Insn>)
      ensures this.nodes == nodes
    {
      this.nodes := nodes;
    }

    method Remove(t: InsnId)
      modifies this
      ensures nodes == Removed(old(nodes), t)
    {
      nodes := Removed(nodes, t);
    }

    method Set(t: InsnId, c: Code)
      modifies this
      ensures nodes == Replaced(old(nodes), t, c)
    {
      nodes := Replaced(nodes, t, c);
    }
  }

  /** Runs the chained edits of a finished analysis against the list, once,
      in discovery order. */
  method Accept(edits: seq<Edit>, list: InsnList)
    modifies list
    ensures list.nodes == ApplyEdits(old(list.nodes), edits)
  {
    var i := 0;
    while i < |edits|
      invariant 0 <= i <= |edits|
      invariant ApplyEdits(list.nodes, edits[i..]) == ApplyEdits(old(list.nodes), edits)
    {
      assert edits[i..][1..] == edits[i + 1..];
      match edits[i] {
        case Remove(t) => list.Remove(t);
        case Replace(t, c) => list.Set(t, c);
      }
      i := i + 1;
    }
  }
}

=== FILE: findings.dfy ===
/** The join of the source's interpreter, applied to a frame, against a
    join that keeps the analysis going. */
module MergeFinding {
  import opened Wrappers
  import opened Bytecode
  import opened Lattice
  import opened Interp
  import opened Analysis

  /** The analyzer merges two incoming frames slot by slot with the
      interpreter's join. */
  function MergeFrames(f: Frame, g: Frame, conservative: bool): (r: Frame)
    requires |f.locals| == |g.locals| && |f.stack| == |g.stack|
    ensures |r.locals| == |f.locals| && |r.stack| == |f.stack|
    ensures forall i :: 0 <= i < |f.locals| ==>
      r.locals[i] == if conservative then MergeConservative(f.locals[i], g.locals[i]) else Merge(f.locals[i], g.locals[i])
    ensures forall i :: 0 <= i < |f.stack| ==>
      r.stack[i] == if conservative then MergeConservative(f.stack[i], g.stack[i]) else Merge(f.stack[i], g.stack[i])
  {
    var join := (v: Value, w: Value) => if conservative then MergeConservative(v, w) else Merge(v, w);
    Frame(seq(|f.locals|, i requires 0 <= i < |f.locals| => join(f.locals[i], g.locals[i])),
          seq(|f.stack|, i requires 0 <= i < |f.stack| => join(f.stack[i], g.stack[i])))
  }

  /** As written: after a join, loading any local aborts with "invalid
      pattern", even when both incoming frames held the same basic value. */
  lemma MergedLocalAborts(f: Frame, g: Frame, k: nat, id: InsnId)
    requires |f.locals| == |g.locals| && |f.stack| == |g.stack| && k < |f.locals|
    ensures FrameStep(MergeFrames(f, g, false), Insn(id, VarLoad(ALOAD, k))) == Err(InvalidPattern(id))
  {
  }

  /** Corrected: a join never aborts a later load, and a local that held the
      same basic value on both sides still holds it. */
  lemma ConservativeMergeLoads(f: Frame, g: Frame, k: nat, id: InsnId)
    requires |f.locals| == |g.locals| && |f.stack| == |g.stack| && k < |f.locals|
    ensures var r := FrameStep(MergeFrames(f, g, true), Insn(id, VarLoad(ALOAD, k)));
      r.Ok? && r.value.stack[|r.value.stack| - 1].Basic? &&
      (f.locals[k] == g.locals[k] && f.locals[k].Basic? ==> r.value.stack[|r.value.stack| - 1] == f.locals[k])
  {
  }
}

=== FILE: interp.dfy ===
/** The abstract-execution interpreter: per-instruction transfer functions
    over the lattice, and the two edit accumulators it updates. */
module Interp {
  import opened Wrappers
  import opened Bytecode
  import opened Lattice

  /** Why an analysis aborts: a special value reached an operation that only
      handles basic values; an edit was chained onto a `null` accumulator; or
      the analyzer found the stack or the locals too small, or execution
      ran past the last instruction without a return or a throw. */
  datatype Failure =
    | InvalidPattern(at: InsnId)
    | NullCurrent(at: InsnId)
    | AnalyzerFailure(at: InsnId)
    | FallsOffEnd

  /** The two accumulators: `pending` holds the edits of completed patterns,
      `current` (possibly `null`) those of the pattern in progress. */
  datatype Schedule = Schedule(pending: seq<Edit>, current: Option<seq<Edit>>)

  const Initial: Schedule := Schedule([], None)

  /** What an operation yields: the value it pushes and the new accumulators. */
  datatype Transfer = Transfer(value: Value, schedule: Schedule)

  /** The bootstrap method the emitted invokedynamic is linked through. */
  const BSM: Handle := Handle(H_INVOKESTATIC, "RT", "bsm",
    "(Ljava/lang/invoke/MethodHandles$Lookup;Ljava/lang/String;Ljava/lang/invoke/MethodType;Ljava/lang/String;)Ljava/lang/invoke/CallSite;",
    false)

  /** The constant bootstrap argument of the emitted invokedynamic. */
  const TAG: string := "hello"

  /** The static call that acquires the call-site holder. */
  predicate IsAcquire(insn: Insn) {
    insn.code.Invoke? && insn.code.opcode == INVOKESTATIC &&
    insn.code.owner == "Test" && insn.code.name == "sites" &&
    insn.code.desc == "(LContext;)LTest$Sites;"
  }

  /** The interface call that invokes a cached method. */
  predicate IsCallSite(insn: Insn) {
    insn.code.Invoke? && insn.code.opcode == INVOKEINTERFACE &&
    insn.code.owner == "CachedMethod" && insn.code.name == "call"
  }

  /** The edits of the pattern in progress (none when `current` is `null`). */
  function CurrentEdits(s: Schedule): seq<Edit> {
    if s.current.Some? then s.current.value else []
  }

  function AsBasicValue(insn: Insn, v: Value): (r: Result<BasicValue, Failure>)
    ensures r.Ok? <==> v.Basic?
    ensures r.Ok? ==> r.value == v.basic
    ensures r.Err? ==> r.error == InvalidPattern(insn.id)
  {
    if v.Basic? then Ok(v.basic) else Err(InvalidPattern(insn.id))
  }

  /** The value seeded into local `slot` at method entry. */
  function NewValue(slot: nat): (v: Value)
    ensures v.Basic?
  {
    Basic(Entry(slot))
  }

  function NewOperation(insn: Insn): (v: Value)
    ensures v.Basic?
  {
    Basic(ResultOf(insn.id))
  }

  /** Copying is delegated: the baseline hands back the value itself. */
  function CopyOperation(insn: Insn, v: Value): (r: Result<Value, Failure>)
    ensures r.Ok? <==> v.Basic?
    ensures r.Ok? ==> r.value == v
    ensures r.Err? ==> r.error == InvalidPattern(insn.id)
  {
    match AsBasicValue(insn, v)
    case Ok(b) => Ok(Basic(b))
    case Err(e) => Err(e)
  }

  function BinaryOperation(insn: Insn, v1: Value, v2: Value): (r: Result<Value, Failure>)
    ensures r.Ok? <==> v1.Basic? && v2.Basic?
    ensures r.Ok? ==> r.value.Basic?
    ensures r.Err? ==> r.error == InvalidPattern(insn.id)
  {
    if v1.Basic? && v2.Basic? then Ok(NewOperation(insn)) else Err(InvalidPattern(insn.id))
  }

  function TernaryOperation(insn: Insn, v1: Value, v2: Value, v3: Value): (r: Result<Value, Failure>)
    ensures r.Ok? <==> v1.Basic? && v2.Basic? && v3.Basic?
    ensures r.Ok? ==> r.value.Basic?
    ensures r.Err? ==> r.error == InvalidPattern(insn.id)
  {
    if v1.Basic? && v2.Basic? && v3.Basic? then Ok(NewOperation(insn)) else Err(InvalidPattern(insn.id))
  }

  /** The baseline call: every argument must be a basic value. */
  function DelegateNary(insn: Insn, values: seq<Value>): (r: Result<Value, Failure>)
    ensures r.Ok? <==> forall i :: 0 <= i < |values| ==> values[i].Basic?
    ensures r.Ok? ==> r.value.Basic?
    ensures r.Err? ==> r.error == InvalidPattern(insn.id)
  {
    if forall i :: 0 <= i < |values| ==> values[i].Basic? then Ok(NewOperation(insn))
    else Err(InvalidPattern(insn.id))
  }

  /** Reading a field off `Sites`: the transfer function's only special case. */
  predicate ReadsSites(insn: Insn, v: Value) {
    insn.code.GetField? && v == Sites
  }

  /** A completed pattern: a cached-method call whose receiver is a `MethodName`. */
  predicate CompletesPattern(insn: Insn, values: seq<Value>) {
    IsCallSite(insn) && |values| >= 1 && values[0].MethodName?
  }

  /** The invokedynamic that replaces the cached-method call `insn`. */
  function Indy(insn: Insn, name: string): (c: Code)
    requires insn.code.Invoke?
    ensures c.InvokeDynamic? && c.name == name && c.desc == insn.code.desc
    ensures c.bsm == BSM && c.tag == TAG
    ensures c.argCount == insn.code.argCount && c.returnsValue == insn.code.returnsValue
  {
    InvokeDynamic(name, insn.code.desc, BSM, TAG, insn.code.argCount, insn.code.returnsValue)
  }

  /** A `GETFIELD` on `Sites` yields the field's name and schedules the
      removal of that `GETFIELD` into `current`; everything else is
      delegated and leaves both accumulators as they were. */
  function UnaryTransfer(s: Schedule, insn: Insn, v: Value): (r: Result<Transfer, Failure>)
    ensures ReadsSites(insn, v) && s.current.None? ==> r == Err(NullCurrent(insn.id))
    ensures ReadsSites(insn, v) && s.current.Some? ==>
      r.Ok? && r.value.value == MethodName(insn.code.name) &&
      r.value.schedule == Schedule(s.pending, Some(s.current.value + [Remove(insn.id)]))
    ensures !ReadsSites(insn, v) ==>
      (r.Ok? <==> v.Basic?) &&
      (r.Ok? ==> r.value.value.Basic? && r.value.schedule == s) &&
      (r.Err? ==> r.error == InvalidPattern(insn.id))
  {
    if ReadsSites(insn, v) then
      if s.current.None? then Err(NullCurrent(insn.id))
      else Ok(Transfer(MethodName(insn.code.name), Schedule(s.pending, Some(s.current.value + [Remove(insn.id)]))))
    else
      match AsBasicValue(insn, v)
      case Ok(_) => Ok(Transfer(NewOperation(insn), s))
      case Err(e) => Err(e)
  }

  /** The acquiring static call yields `Sites` and restarts `current` with
      "replace this call by POP"; a completed pattern chains "replace the
      call by invokedynamic" onto `current`, promotes the whole of it to
      `pending` and resets `current` to `null`; every other call is
      delegated and leaves both accumulators as they were. */
  function NaryTransfer(s: Schedule, insn: Insn, values: seq<Value>): (r: Result<Transfer, Failure>)
    ensures IsAcquire(insn) ==>
      r == Ok(Transfer(Sites, Schedule(s.pending, Some([Replace(insn.id, Pop)]))))
    ensures CompletesPattern(insn, values) && s.current.None? ==> r == Err(NullCurrent(insn.id))
    ensures CompletesPattern(insn, values) && s.current.Some? ==>
      r.Ok? && r.value.value == Basic(Reference) &&
      r.value.schedule == Schedule(s.pending + s.current.value + [Replace(insn.id, Indy(insn, values[0].name))], None)
    ensures !IsAcquire(insn) && !CompletesPattern(insn, values) ==>
      (r.Ok? <==> forall i :: 0 <= i < |values| ==> values[i].Basic?) &&
      (r.Ok? ==> r.value.value.Basic? && r.value.schedule == s) &&
      (r.Err? ==> r.error == InvalidPattern(insn.id))
  {
    if IsAcquire(insn) then
      Ok(Transfer(Sites, Schedule(s.pending, Some([Replace(insn.id, Pop)]))))
    else if CompletesPattern(insn, values) then
      if s.current.None? then Err(NullCurrent(insn.id))
      else
        var group := s.current.value + [Replace(insn.id, Indy(insn, values[0].name))];
        Ok(Transfer(Basic(Reference), Schedule(s.pending + group, None)))
    else
      match DelegateNary(insn, values)
      case Ok(v) => Ok(Transfer(v, s))
      case Err(e) => Err(e)
  }

  /** The interpreter object: its two accumulators are fields the
      operations update in place. */
  class AbstractExecutionInterpreter {
    var pending: seq<Edit>
    var current: Option<seq<Edit>>

    constructor ()
      ensures pending == [] && current == None
    {
      pending := [];
      current := None;
    }

    function State(): Schedule
      reads this
    {
      Schedule(pending, current)
    }

    method UnaryOperation(insn: Insn, value: Value) returns (r: Result<Value, Failure>)
      modifies this
      ensures r.Ok? ==> UnaryTransfer(old(State()), insn, value) == Ok(Transfer(r.value, State()))
      ensures r.Err? ==> UnaryTransfer(old(State()), insn, value) == Err(r.error) && State() == old(State())
    {
      if insn.code.GetField? && value == Sites {
        if current.None? {
          return Err(NullCurrent(insn.id));
        }
        current := Some(current.value + [Remove(insn.id)]);
        return Ok(MethodName(insn.code.name));
      }
      var b := AsBasicValue(insn, value);
      if b.Err? {
        return Err(b.error);
      }
      r := Ok(NewOperation(insn));
    }

    method NaryOperation(insn: Insn, values: seq<Value>) returns (r: Result<Value, Failure>)
      modifies this
      ensures r.Ok? ==> NaryTransfer(old(State()), insn, values) == Ok(Transfer(r.value, State()))
      ensures r.Err? ==> NaryTransfer(old(State()), insn, values) == Err(r.error) && State() == old(State())
    {
      if insn.code.Invoke? && insn.code.opcode == INVOKESTATIC {
        if insn.code.owner == "Test" && insn.code.name == "sites" && insn.code.desc == "(LContext;)LTest$Sites;" {
          current := Some([Replace(insn.id, Pop)]);
          return Ok(Sites);
        }
      } else if insn.code.Invoke? && insn.code.opcode == INVOKEINTERFACE {
        if insn.code.owner == "CachedMethod" && insn.code.name == "call" &&
           |values| >= 1 && values[0].MethodName? {
          var name := values[0].name;
          if current.None? {
            return Err(NullCurrent(insn.id));
          }
          current := Some(current.value + [Replace(insn.id, Indy(insn, name))]);
          pending := pending + current.value;
          current := None;
          return Ok(Basic(Reference));
        }
      }
      r := DelegateNary(insn, values);
    }
  }

  // ---------------------------------------------------------------------
  // Shape of the accumulated edits. Read left to right, the edits of each
  // completed pattern are "replace by POP", some removals, then "replace by
  // invokedynamic"; `current` holds an unfinished such group.

  datatype Phase = Closed | Open | Broken

  function Advance(p: Phase, e: Edit): Phase {
    match e
    case Replace(_, Pop) => if p == Closed then Open else Broken
    case Remove(_) => if p == Open then Open else Broken
    case Replace(_, InvokeDynamic(_, _, _, _, _, _)) => if p == Open then Closed else Broken
    case _ => Broken
  }

  function Scan(p: Phase, es: seq<Edit>): Phase
    decreases |es|
  {
    if es == [] then p else Scan(Advance(p, es[0]), es[1..])
  }

  lemma {:induction false} ScanAppend(p: Phase, a: seq<Edit>, b: seq<Edit>)
    ensures Scan(p, a + b) == Scan(Scan(p, a), b)
    decreases |a|
  {
    if a == [] {
      assert a + b == b;
    } else {
      assert (a + b)[1..] == a[1..] + b;
      ScanAppend(Advance(p, a[0]), a[1..], b);
    }
  }

  predicate WellGrouped(s: Schedule) {
    Scan(Closed, s.pending) == Closed &&
    (s.current.Some? ==> Scan(Closed, s.current.value) == Open)
  }

  /** Every operation keeps the accumulated edits grouped pattern by pattern. */
  lemma {:induction false} UnaryKeepsGrouped(s: Schedule, insn: Insn, v: Value)
    requires WellGrouped(s) && UnaryTransfer(s, insn, v).Ok?
    ensures WellGrouped(UnaryTransfer(s, insn, v).value.schedule)
  {
    if ReadsSites(insn, v) {
      ScanAppend(Closed, s.current.value, [Remove(insn.id)]);
    }
  }

  lemma {:induction false} NaryKeepsGrouped(s: Schedule, insn: Insn, values: seq<Value>)
    requires WellGrouped(s) && NaryTransfer(s, insn, values).Ok?
    ensures WellGrouped(NaryTransfer(s, insn, values).value.schedule)
  {
    if !IsAcquire(insn) && CompletesPattern(insn, values) {
      var e := Replace(insn.id, Indy(insn, values[0].name));
      ScanAppend(Closed, s.pending, s.current.value);
      ScanAppend(Closed, s.pending + s.current.value, [e]);
    }
  }

  function CountPopReplaces(es: seq<Edit>): nat {
    if es == [] then 0 else (if es[0].Replace? && es[0].with.Pop? then 1 else 0) + CountPopReplaces(es[1..])
  }

  function CountIndyReplaces(es: seq<Edit>): nat {
    if es == [] then 0 else (if es[0].Replace? && es[0].with.InvokeDynamic? then 1 else 0) + CountIndyReplaces(es[1..])
  }

  function OpenCount(p: Phase): nat {
    if p == Open then 1 else 0
  }

  /** In grouped edits each "replace by POP" is matched by one "replace by
      invokedynamic" later on. */
  lemma {:induction false} GroupedBalance(p: Phase, es: seq<Edit>)
    requires p != Broken && Scan(p, es) != Broken
    ensures CountPopReplaces(es) + OpenCount(p) == CountIndyReplaces(es) + OpenCount(Scan(p, es))
    decreases |es|
  {
    if es != [] {
      var q := Advance(p, es[0]);
      if q == Broken {
        BrokenStays(es[1..]);
      }
      GroupedBalance(q, es[1..]);
    }
  }

  lemma {:induction false} BrokenStays(es: seq<Edit>)
    ensures Scan(Broken, es) == Broken
    decreases |es|
  {
    if es != [] {
      BrokenStays(es[1..]);
    }
  }

  // ---------------------------------------------------------------------
  // Targets of the accumulated edits: each operation addresses only the
  // instruction it interprets.

  /** What an edit does to the instruction it addresses: the acquiring call
      is replaced by POP, a GETFIELD is removed, and a cached-method call is
      replaced by the invokedynamic built from that very call. */
  predicate Addresses(e: Edit, x: Insn) {
    x.id == e.target &&
    match e
    case Remove(_) => x.code.GetField?
    case Replace(_, c) =>
      (c == Pop && IsAcquire(x)) ||
      (c.InvokeDynamic? && IsCallSite(x) && c == Indy(x, c.name))
  }

  /** The edits the interpreter holds, completed ones first. */
  function Tracked(s: Schedule): seq<Edit> {
    s.pending + CurrentEdits(s)
  }

  lemma {:induction false} UnaryTargets(s: Schedule, insn: Insn, v: Value)
    requires UnaryTransfer(s, insn, v).Ok?
    requires DistinctTargets(Tracked(s)) && insn.id !in TargetSet(Tracked(s))
    ensures var s' := UnaryTransfer(s, insn, v).value.schedule;
      DistinctTargets(Tracked(s')) && TargetSet(Tracked(s')) <= TargetSet(Tracked(s)) + {insn.id}
    ensures var s' := UnaryTransfer(s, insn, v).value.schedule;
      forall e :: e in Tracked(s') ==> e in Tracked(s) || Addresses(e, insn)
  {
    if ReadsSites(insn, v) {
      var s' := UnaryTransfer(s, insn, v).value.schedule;
      assert Tracked(s') == Tracked(s) + [Remove(insn.id)];
      DistinctAppendOne(Tracked(s), Remove(insn.id));
    }
  }

  lemma {:induction false} NaryTargets(s: Schedule, insn: Insn, values: seq<Value>)
    requires NaryTransfer(s, insn, values).Ok?
    requires DistinctTargets(Tracked(s)) && insn.id !in TargetSet(Tracked(s))
    ensures var s' := NaryTransfer(s, insn, values).value.schedule;
      DistinctTargets(Tracked(s')) && TargetSet(Tracked(s')) <= TargetSet(Tracked(s)) + {insn.id}
    ensures var s' := NaryTransfer(s, insn, values).value.schedule;
      forall e :: e in Tracked(s') ==> e in Tracked(s) || Addresses(e, insn)
  {
    var s' := NaryTransfer(s, insn, values).value.schedule;
    if IsAcquire(insn) {
      DistinctPrefix(s.pending, CurrentEdits(s));
      assert Tracked(s') == s.pending + [Replace(insn.id, Pop)];
      DistinctAppendOne(s.pending, Replace(insn.id, Pop));
    } else if CompletesPattern(insn, values) {
      var e := Replace(insn.id, Indy(insn, values[0].name));
      assert Tracked(s') == Tracked(s) + [e];
      DistinctAppendOne(Tracked(s), e);
    }
  }
}

=== FILE: lattice.dfy ===
/** The abstract values the rewriter's interpreter computes with. */
module Lattice {

  /** A value of the baseline (basic) interpreter. Its type inference is not
      part of this model, so a basic value is an opaque token saying where it
      came from. */
  datatype BasicValue =
    | Reference               // the baseline's generic object reference
    | Uninitialized           // the baseline's result of merging two different values
    | Entry(slot: nat)        // the value seeded into a local at method entry
    | ResultOf(insn: nat)     // the value the baseline computes for an instruction

  /** `NoneValue` and `Sites` are the two constants of the source's `Values`
      enumeration; `MethodName` carries the name of the field read off `Sites`. */
  datatype Value =
    | Basic(basic: BasicValue)
    | NoneValue
    | Sites
    | MethodName(name: string)

  predicate IsSpecial(v: Value) {
    !v.Basic?
  }

  /** Slot width reported by the special values. */
  function Size(v: Value): (n: nat)
    requires IsSpecial(v)
    ensures n == 1
  {
    1
  }

  /** The join used at control-flow merges: both arguments are ignored. */
  function Merge(v: Value, w: Value): (r: Value)
    ensures r == NoneValue
  {
    NoneValue
  }

  /** Neither `Sites` nor a `MethodName` survives a join, and the joined
      value is not a basic one either. */
  lemma MergeForgetsEverything(v: Value, w: Value)
    ensures !Merge(v, w).Sites? && !Merge(v, w).MethodName?
    ensures IsSpecial(Merge(v, w))
  {
  }

  /** A join that drops special values to a basic value instead of to
      `NoneValue`, and keeps two equal basic values. */
  function MergeConservative(v: Value, w: Value): (r: Value)
    ensures r.Basic?
    ensures v == w && v.Basic? ==> r == v
    ensures v != w || IsSpecial(v) ==> r == Basic(Uninitialized)
  {
    if v == w && v.Basic? then v else Basic(Uninitialized)
  }
}

=== FILE: properties.dfy ===
/** What one whole analysis promises about the edits it completes and about
    the rewritten method body. */
module AnalysisProperties {
  import opened Wrappers
  import opened Bytecode
  import opened Lattice
  import opened Interp
  import opened Analysis

  // ---------------------------------------------------------------------
  // Edits need a whole pattern: an acquiring call, a later GETFIELD and a
  // later cached-method call.

  predicate HasAcquire(s: seq<Insn>) {
    exists i :: 0 <= i < |s| && IsAcquire(s[i])
  }

  /** A GETFIELD after an acquiring call. */
  predicate HasRead(s: seq<Insn>) {
    exists j :: 0 <= j < |s| && s[j].code.GetField? && HasAcquire(s[..j])
  }

  /** An acquiring call, then a GETFIELD, then a cached-method call. */
  predicate HasPattern(s: seq<Insn>) {
    exists k :: 0 <= k < |s| && IsCallSite(s[k]) && HasRead(s[..k])
  }

  /** How far a prefix of the body has come through the pattern: 1 after an
      acquiring call, 2 after a later GETFIELD, 3 after a later cached-method call. */
  function Next(p: nat, x: Insn): nat {
    if IsAcquire(x) && p == 0 then 1
    else if x.code.GetField? && p == 1 then 2
    else if IsCallSite(x) && p == 2 then 3
    else p
  }

  function Progress(s: seq<Insn>): (p: nat)
    ensures p <= 3
    decreases |s|
  {
    if s == [] then 0 else Next(Progress(s[..|s| - 1]), s[|s| - 1])
  }

  /** Progress never goes back. */
  lemma {:induction false} ProgressGrows(a: seq<Insn>, b: seq<Insn>)
    ensures Progress(a) <= Progress(a + b)
    decreases |b|
  {
    if b != [] {
      var c := b[..|b| - 1];
      var ab := a + b;
      assert ab[..|ab| - 1] == a + c;
      assert Progress(ab) == Next(Progress(a + c), ab[|ab| - 1]);
      ProgressGrows(a, c);
    } else {
      assert a + b == a;
    }
  }

  /** Progress is backed by instructions of the prefix, in order. */
  lemma {:induction false} AcquireWitness(s: seq<Insn>)
    ensures Progress(s) >= 1 ==> HasAcquire(s)
    decreases |s|
  {
    if s != [] {
      var n := |s| - 1;
      var t := s[..n];
      AcquireWitness(t);
      assert Progress(s) == Next(Progress(t), s[n]);
      if Progress(t) >= 1 {
        var i :| 0 <= i < |t| && IsAcquire(t[i]);
        assert s[i] == t[i];
      } else if Progress(s) >= 1 {
        assert IsAcquire(s[n]);
      }
    }
  }

  lemma {:induction false} ReadWitness(s: seq<Insn>)
    ensures Progress(s) >= 2 ==> HasRead(s)
    decreases |s|
  {
    if s != [] {
      var n := |s| - 1;
      var t := s[..n];
      ReadWitness(t);
      assert Progress(s) == Next(Progress(t), s[n]);
      if Progress(t) >= 2 {
        var j :| 0 <= j < |t| && t[j].code.GetField? && HasAcquire(t[..j]);
        assert s[j] == t[j] && s[..j] == t[..j];
      } else if Progress(s) >= 2 {
        AcquireWitness(t);
        assert s[n].code.GetField? && s[..n] == t;
      }
    }
  }

  lemma {:induction false} PatternWitness(s: seq<Insn>)
    ensures Progress(s) == 3 ==> HasPattern(s)
    decreases |s|
  {
    if s != [] {
      var n := |s| - 1;
      var t := s[..n];
      PatternWitness(t);
      assert Progress(s) == Next(Progress(t), s[n]);
      if Progress(t) == 3 {
        var k :| 0 <= k < |t| && IsCallSite(t[k]) && HasRead(t[..k]);
        assert s[k] == t[k] && s[..k] == t[..k];
      } else if Progress(s) == 3 {
        ReadWitness(t);
        assert IsCallSite(s[n]) && s[..n] == t;
      }
    }
  }

  /** The values that can exist at a given progress: `Sites` only after an
      acquiring call, a `MethodName` only after a GETFIELD on it. */
  predicate Within(v: Value, p: nat) {
    (p == 0 ==> !v.Sites?) && (p <= 1 ==> !v.MethodName?)
  }

  predicate FrameWithin(f: Frame, p: nat) {
    (forall i :: 0 <= i < |f.locals| ==> Within(f.locals[i], p)) &&
    (forall i :: 0 <= i < |f.stack| ==> Within(f.stack[i], p))
  }

  /** What the analysis state owes to the part of the body already executed:
      its special values, and no completed edit before a whole pattern. */
  predicate Origin(st: State, p: nat) {
    FrameWithin(st.frame, p) && (p < 3 ==> st.schedule.pending == [])
  }

  lemma FrameStepWithin(f: Frame, insn: Insn, p: nat)
    requires !UsesAccumulators(insn.code) && FrameWithin(f, p) && FrameStep(f, insn).Ok?
    ensures FrameWithin(FrameStep(f, insn).value, p)
  {
  }

  lemma UnaryStepOrigin(st: State, insn: Insn, pushes: bool, p: nat)
    requires Origin(st, p) && UnaryStep(st, insn, pushes).Ok?
    ensures Origin(UnaryStep(st, insn, pushes).value, Next(p, insn))
  {
    assert Within(st.frame.stack[|st.frame.stack| - 1], p);
  }

  lemma NaryStepOrigin(st: State, insn: Insn, p: nat)
    requires insn.code.Invoke? || insn.code.InvokeDynamic?
    requires Origin(st, p) && NaryStep(st, insn).Ok?
    ensures Origin(NaryStep(st, insn).value, Next(p, insn))
  {
    var n := |st.frame.stack|;
    var values := st.frame.stack[n - Consumed(insn.code)..];
    assert |values| >= 1 ==> values[0] == st.frame.stack[n - Consumed(insn.code)];
  }

  /** One step advances the origin invariant along with the progress. */
  lemma StepOrigin(st: State, insn: Insn, p: nat)
    requires Origin(st, p) && Step(st, insn).Ok?
    ensures Origin(Step(st, insn).value, Next(p, insn))
  {
    match insn.code {
      case UnaryOp(_, pushes) => UnaryStepOrigin(st, insn, pushes, p);
      case GetField(_, _, _) => UnaryStepOrigin(st, insn, true, p);
      case Return(_) => UnaryStepOrigin(st, insn, false, p);
      case Invoke(_, _, _, _, _, _) => NaryStepOrigin(st, insn, p);
      case InvokeDynamic(_, _, _, _, _, _) => NaryStepOrigin(st, insn, p);
      case _ => FrameStepWithin(st.frame, insn, p);
    }
  }

  /** The origin invariant still holds once more instructions have run. */
  lemma OriginGrows(st: State, done: seq<Insn>, more: seq<Insn>)
    requires Origin(st, Progress(done))
    ensures Origin(st, Progress(done + more))
  {
    ProgressGrows(done, more);
  }

  lemma {:induction false} RunOrigin(st: State, done: seq<Insn>, insns: seq<Insn>)
    requires Origin(st, Progress(done)) && Run(st, insns).Ok?
    ensures Origin(Run(st, insns).value, Progress(done + insns))
    decreases |insns|
  {
    var x := insns[0];
    var done' := done + [x];
    assert done'[..|done'| - 1] == done;
    var st' := Step(st, x).value;
    StepOrigin(st, x, Progress(done));
    assert done' + insns[1..] == done + insns;
    if EndsBlock(x) {
      OriginGrows(st', done', insns[1..]);
    } else {
      RunOrigin(st', done', insns[1..]);
    }
  }

  /** An analysis completes an edit only in a body holding an acquiring
      call, a later GETFIELD and a later cached-method call. */
  lemma PatternPrecedesEdits(insns: seq<Insn>, maxLocals: nat)
    requires Edits(insns, maxLocals).Ok? && Edits(insns, maxLocals).value != []
    ensures HasPattern(insns)
    ensures exists i, j, k ::
      0 <= i < j < k < |insns| && IsAcquire(insns[i]) && insns[j].code.GetField? && IsCallSite(insns[k])
  {
    EditsNeedPattern(insns, maxLocals);
    PatternWitness(insns);
    PatternPositions(insns);
  }

  /** Completed edits mean the scan of the body reached the last pattern step. */
  lemma EditsNeedPattern(insns: seq<Insn>, maxLocals: nat)
    requires Edits(insns, maxLocals).Ok? && Edits(insns, maxLocals).value != []
    ensures Progress(insns) == 3
  {
    var entry := State(Initial, EntryFrame(maxLocals));
    assert [] + insns == insns;
    RunOrigin(entry, [], insns);
  }

  /** The pattern, by positions in the body. */
  lemma PatternPositions(s: seq<Insn>)
    requires HasPattern(s)
    ensures exists i, j, k :: 0 <= i < j < k < |s| && IsAcquire(s[i]) && s[j].code.GetField? && IsCallSite(s[k])
  {
    var k :| 0 <= k < |s| && IsCallSite(s[k]) && HasRead(s[..k]);
    var j :| 0 <= j < k && s[..k][j].code.GetField? && HasAcquire(s[..k][..j]);
    var i :| 0 <= i < j && IsAcquire(s[..k][..j][i]);
    assert s[..k][..j][i] == s[i] && s[..k][j] == s[j];
  }

  /** A body without a whole pattern (no acquiring call, or no GETFIELD after
      it, or no cached-method call after that) completes no edit, so the
      edit pass leaves it exactly as it was. */
  lemma IncompletePatternLeavesBody(insns: seq<Insn>, maxLocals: nat)
    requires !HasPattern(insns)
    ensures Edits(insns, maxLocals).Ok? ==> Edits(insns, maxLocals).value == []
    ensures Transform(insns, maxLocals).Ok? ==> Transform(insns, maxLocals).value == insns
  {
    if Edits(insns, maxLocals).Ok? && Edits(insns, maxLocals).value != [] {
      PatternPrecedesEdits(insns, maxLocals);
    }
  }

  /** The empty body of an abstract or native method is not analysed: nothing
      is scheduled and the method is written unchanged. */
  lemma EmptyBodyUnchanged(maxLocals: nat)
    ensures Edits([], maxLocals) == Ok([])
    ensures Transform([], maxLocals) == Ok([])
  {
  }

  /** A special value that is stored rather than consumed by the pattern
      aborts the analysis. */
  lemma SpecialStoreAborts(f: Frame, insn: Insn)
    requires insn.code.VarStore? && |f.stack| >= 1 && insn.code.local < |f.locals|
    requires IsSpecial(f.stack[|f.stack| - 1])
    ensures FrameStep(f, insn) == Err(InvalidPattern(insn.id))
  {
  }

  // ---------------------------------------------------------------------
  // Completed edits: grouped per pattern, one per instruction, all inside
  // the body.

  lemma {:induction false} StepKeepsGrouped(st: State, insn: Insn)
    requires WellGrouped(st.schedule) && Step(st, insn).Ok?
    ensures WellGrouped(Step(st, insn).value.schedule)
  {
    var n := |st.frame.stack|;
    match insn.code {
      case UnaryOp(_, _) => UnaryKeepsGrouped(st.schedule, insn, st.frame.stack[n - 1]);
      case GetField(_, _, _) => UnaryKeepsGrouped(st.schedule, insn, st.frame.stack[n - 1]);
      case Return(_) => UnaryKeepsGrouped(st.schedule, insn, st.frame.stack[n - 1]);
      case Invoke(_, _, _, _, _, _) =>
        NaryKeepsGrouped(st.schedule, insn, st.frame.stack[n - Consumed(insn.code)..]);
      case InvokeDynamic(_, _, _, _, _, _) =>
        NaryKeepsGrouped(st.schedule, insn, st.frame.stack[n - Consumed(insn.code)..]);
      case _ =>
    }
  }

  lemma {:induction false} StepTargets(st: State, insn: Insn)
    requires Step(st, insn).Ok?
    requires DistinctTargets(Tracked(st.schedule)) && insn.id !in TargetSet(Tracked(st.schedule))
    ensures var s' := Step(st, insn).value.schedule;
      DistinctTargets(Tracked(s')) && TargetSet(Tracked(s')) <= TargetSet(Tracked(st.schedule)) + {insn.id}
    ensures var s' := Step(st, insn).value.schedule;
      forall e :: e in Tracked(s') ==> e in Tracked(st.schedule) || Addresses(e, insn)
  {
    var n := |st.frame.stack|;
    match insn.code {
      case UnaryOp(_, _) => UnaryTargets(st.schedule, insn, st.frame.stack[n - 1]);
      case GetField(_, _, _) => UnaryTargets(st.schedule, insn, st.frame.stack[n - 1]);
      case Return(_) => UnaryTargets(st.schedule, insn, st.frame.stack[n - 1]);
      case Invoke(_, _, _, _, _, _) =>
        NaryTargets(st.schedule, insn, st.frame.stack[n - Consumed(insn.code)..]);
      case InvokeDynamic(_, _, _, _, _, _) =>
        NaryTargets(st.schedule, insn, st.frame.stack[n - Consumed(insn.code)..]);
      case _ =>
    }
  }

  lemma {:induction false} RunKeepsInvariants(st: State, insns: seq<Insn>)
    requires UniqueIds(insns) && Run(st, insns).Ok?
    requires WellGrouped(st.schedule)
    requires DistinctTargets(Tracked(st.schedule)) && TargetSet(Tracked(st.schedule)) !! IdSet(insns)
    ensures var s' := Run(st, insns).value.schedule;
      WellGrouped(s') && DistinctTargets(Tracked(s')) &&
      TargetSet(Tracked(s')) <= TargetSet(Tracked(st.schedule)) + IdSet(insns)
    ensures var s' := Run(st, insns).value.schedule;
      forall e :: e in Tracked(s') ==> e in Tracked(st.schedule) || exists x :: x in insns && Addresses(e, x)
    decreases |insns|
  {
    if insns != [] {
      var x := insns[0];
      assert x.id in IdSet(insns);
      StepKeepsGrouped(st, x);
      StepTargets(st, x);
      if !EndsBlock(x) {
        var st' := Step(st, x).value;
        var rest := insns[1..];
        assert UniqueIds(rest);
        assert IdSet(insns) == {x.id} + IdSet(rest) by {
          assert insns == [x] + rest;
        }
        assert x.id !in IdSet(rest) by {
          forall j | 0 <= j < |rest| ensures rest[j].id != x.id {
            assert rest[j] == insns[j + 1];
          }
        }
        RunKeepsInvariants(st', rest);
      }
    }
  }

  /** Every completed edit addresses an instruction of the body of the kind
      it is meant for. */
  lemma EditsAddressBody(insns: seq<Insn>, maxLocals: nat)
    requires UniqueIds(insns) && Edits(insns, maxLocals).Ok?
    ensures forall e :: e in Edits(insns, maxLocals).value ==> exists x :: x in insns && Addresses(e, x)
  {
    if insns != [] {
      var entry := State(Initial, EntryFrame(maxLocals));
      RunKeepsInvariants(entry, insns);
      var s' := Run(entry, insns).value.schedule;
      assert Tracked(entry.schedule) == [];
      forall e | e in s'.pending ensures exists x :: x in insns && Addresses(e, x) {
        assert e in Tracked(s');
      }
    }
  }

  // ---------------------------------------------------------------------
  // Cached-method names: the name an invokedynamic is given is the name of
  // a field some GETFIELD of the body read.

  /** A GETFIELD among `done` reads a field called `n`. */
  predicate ReadIn(n: string, done: seq<Insn>) {
    exists g :: g in done && g.code.GetField? && g.code.name == n
  }

  predicate NameRead(v: Value, done: seq<Insn>) {
    v.MethodName? ==> ReadIn(v.name, done)
  }

  predicate IndyNamed(e: Edit, done: seq<Insn>) {
    e.Replace? && e.with.InvokeDynamic? ==> ReadIn(e.with.name, done)
  }

  /** Every `MethodName` in the frame and every scheduled invokedynamic
      carries the name of a field read by an instruction already executed. */
  predicate NamesRead(st: State, done: seq<Insn>) {
    (forall i :: 0 <= i < |st.frame.locals| ==> NameRead(st.frame.locals[i], done)) &&
    (forall i :: 0 <= i < |st.frame.stack| ==> NameRead(st.frame.stack[i], done)) &&
    (forall e :: e in Tracked(st.schedule) ==> IndyNamed(e, done))
  }

  lemma ReadInGrows(n: string, done: seq<Insn>, more: seq<Insn>)
    requires ReadIn(n, done)
    ensures ReadIn(n, done + more)
  {
    var g :| g in done && g.code.GetField? && g.code.name == n;
    assert g in done + more;
  }

  /** Executing more instructions keeps what was already read. */
  lemma NamesReadGrows(st: State, done: seq<Insn>, more: seq<Insn>)
    requires NamesRead(st, done)
    ensures NamesRead(st, done + more)
  {
    forall i | 0 <= i < |st.frame.locals| ensures NameRead(st.frame.locals[i], done + more) {
      if st.frame.locals[i].MethodName? {
        ReadInGrows(st.frame.locals[i].name, done, more);
      }
    }
    forall i | 0 <= i < |st.frame.stack| ensures NameRead(st.frame.stack[i], done + more) {
      if st.frame.stack[i].MethodName? {
        ReadInGrows(st.frame.stack[i].name, done, more);
      }
    }
    forall e | e in Tracked(st.schedule) ensures IndyNamed(e, done + more) {
      if e.Replace? && e.with.InvokeDynamic? {
        ReadInGrows(e.with.name, done, more);
      }
    }
  }

  lemma UnaryStepNames(st: State, insn: Insn, pushes: bool, done: seq<Insn>)
    requires NamesRead(st, done + [insn]) && UnaryStep(st, insn, pushes).Ok?
    ensures NamesRead(UnaryStep(st, insn, pushes).value, done + [insn])
  {
    var n := |st.frame.stack|;
    var s := st.schedule;
    if ReadsSites(insn, st.frame.stack[n - 1]) {
      assert insn in done + [insn];
      assert Tracked(UnaryStep(st, insn, pushes).value.schedule) == Tracked(s) + [Remove(insn.id)];
    }
  }

  lemma NaryStepNames(st: State, insn: Insn, done: seq<Insn>)
    requires insn.code.Invoke? || insn.code.InvokeDynamic?
    requires NamesRead(st, done + [insn]) && NaryStep(st, insn).Ok?
    ensures NamesRead(NaryStep(st, insn).value, done + [insn])
  {
    var n := |st.frame.stack|;
    var values := st.frame.stack[n - Consumed(insn.code)..];
    var s := st.schedule;
    var s' := NaryStep(st, insn).value.schedule;
    if IsAcquire(insn) {
      assert Tracked(s') == s.pending + [Replace(insn.id, Pop)];
    } else if CompletesPattern(insn, values) {
      assert values[0] == st.frame.stack[n - Consumed(insn.code)];
      var e := Replace(insn.id, Indy(insn, values[0].name));
      assert Tracked(s') == Tracked(s) + [e];
    }
  }

  /** One step keeps every cached-method name tied to a GETFIELD executed so far. */
  lemma StepNames(st: State, insn: Insn, done: seq<Insn>)
    requires NamesRead(st, done) && Step(st, insn).Ok?
    ensures NamesRead(Step(st, insn).value, done + [insn])
  {
    NamesReadGrows(st, done, [insn]);
    match insn.code {
      case UnaryOp(_, pushes) => UnaryStepNames(st, insn, pushes, done);
      case GetField(_, _, _) => UnaryStepNames(st, insn, true, done);
      case Return(_) => UnaryStepNames(st, insn, false, done);
      case Invoke(_, _, _, _, _, _) => NaryStepNames(st, insn, done);
      case InvokeDynamic(_, _, _, _, _, _) => NaryStepNames(st, insn, done);
      case _ =>
    }
  }

  lemma {:induction false} RunNames(st: State, done: seq<Insn>, insns: seq<Insn>)
    requires NamesRead(st, done) && Run(st, insns).Ok?
    ensures NamesRead(Run(st, insns).value, done + insns)
    decreases |insns|
  {
    var x := insns[0];
    var done' := done + [x];
    StepNames(st, x, done);
    assert done' + insns[1..] == done + insns;
    if EndsBlock(x) {
      NamesReadGrows(Step(st, x).value, done', insns[1..]);
    } else {
      RunNames(Step(st, x).value, done', insns[1..]);
    }
  }

  /** Every invokedynamic an analysis schedules is named after a field that
      a GETFIELD of the body reads. */
  lemma EditsNameRead(insns: seq<Insn>, maxLocals: nat)
    requires Edits(insns, maxLocals).Ok?
    ensures forall e :: e in Edits(insns, maxLocals).value && e.Replace? && e.with.InvokeDynamic? ==>
      exists g :: g in insns && g.code.GetField? && g.code.name == e.with.name
  {
    if insns != [] {
      var entry := State(Initial, EntryFrame(maxLocals));
      assert Tracked(entry.schedule) == [];
      assert NamesRead(entry, []);
      assert [] + insns == insns;
      RunNames(entry, [], insns);
      var s' := Run(entry, insns).value.schedule;
      forall e | e in s'.pending && e.Replace? && e.with.InvokeDynamic?
        ensures exists g :: g in insns && g.code.GetField? && g.code.name == e.with.name
      {
        assert e in Tracked(s');
        assert IndyNamed(e, insns);
      }
    }
  }

  /** The completed edits have distinct targets inside the body and come in
      closed groups, one invokedynamic replacement per POP replacement. */
  lemma EditsGrouped(insns: seq<Insn>, maxLocals: nat)
    requires UniqueIds(insns) && Edits(insns, maxLocals).Ok?
    ensures var es := Edits(insns, maxLocals).value;
      DistinctTargets(es) && TargetSet(es) <= IdSet(insns) &&
      Scan(Closed, es) == Closed && CountPopReplaces(es) == CountIndyReplaces(es)
  {
    if insns != [] {
      var entry := State(Initial, EntryFrame(maxLocals));
      RunKeepsInvariants(entry, insns);
      var s' := Run(entry, insns).value.schedule;
      var es := s'.pending;
      DistinctPrefix(es, CurrentEdits(s'));
      GroupedBalance(Closed, es);
    }
  }

  /** The edits one analysis completes address distinct instructions of the
      body, come in whole groups "replace the acquiring call by POP, remove
      the GETFIELDs, replace the cached-method call by invokedynamic", every
      invokedynamic is named after a field a GETFIELD of the body reads, and
      applying them, in discovery order, removes exactly the removed
      instructions while every instruction no edit addresses keeps its
      place in the order. */
  lemma {:induction false} EditPass(insns: seq<Insn>, maxLocals: nat)
    requires UniqueIds(insns) && Edits(insns, maxLocals).Ok?
    ensures var es := Edits(insns, maxLocals).value;
      DistinctTargets(es) && TargetSet(es) <= IdSet(insns) &&
      (forall e :: e in es ==> exists x :: x in insns && Addresses(e, x)) &&
      (forall e :: e in es && e.Replace? && e.with.InvokeDynamic? ==>
        exists g :: g in insns && g.code.GetField? && g.code.name == e.with.name) &&
      Scan(Closed, es) == Closed && CountPopReplaces(es) == CountIndyReplaces(es) &&
      Transform(insns, maxLocals) == Ok(Rewrite(insns, es)) &&
      |Transform(insns, maxLocals).value| == |insns| - CountRemoves(es) &&
      Untouched(Transform(insns, maxLocals).value, es) == Untouched(insns, es)
  {
    var es := Edits(insns, maxLocals).value;
    EditsAddressBody(insns, maxLocals);
    EditsNameRead(insns, maxLocals);
    EditsGrouped(insns, maxLocals);
    ApplyEditsIsRewrite(insns, es);
    ApplyEditsLength(insns, es);
    RewriteKeepsUntouched(insns, es);
  }
}

=== FILE: sample.dfy ===
/** The sample program's `main` method: line 18 of Test.java acquires the
    sites holder, reads its `some_method` field and calls it. */
module Sample {
  import opened Wrappers
  import opened Bytecode
  import opened Lattice
  import opened Interp
  import opened Analysis
  import opened AnalysisProperties

  const CALL_DESC: string :=
    "(LContext;Ljava/lang/Object;Ljava/lang/Object;Ljava/lang/Object;Ljava/lang/Object;)Ljava/lang/Object;"

  const AcquireCode: Code := Invoke(INVOKESTATIC, "Test", "sites", "(LContext;)LTest$Sites;", 1, true)
  const ReadCode: Code := GetField("Test$Sites", "some_method", "LCachedMethod;")
  const CallCode: Code := Invoke(INVOKEINTERFACE, "CachedMethod", "call", CALL_DESC, 5, true)
  const PrintCode: Code := Invoke(INVOKEVIRTUAL, "java/io/PrintStream", "println", "(Ljava/lang/Object;)V", 1, false)

  /** The invokedynamic that takes the place of the call. */
  const SampleIndy: Code := InvokeDynamic("some_method", CALL_DESC, BSM, "hello", 5, true)

  /** `main`: three locals set to null (lines 15-17), the statement of line
      18, and the printing of its result (line 19). */
  const MainBody: seq<Insn> := [
    Insn(0, Constant(ACONST_NULL)), Insn(1, VarStore(ASTORE, 1)),
    Insn(2, Constant(ACONST_NULL)), Insn(3, VarStore(ASTORE, 2)),
    Insn(4, Constant(ACONST_NULL)), Insn(5, VarStore(ASTORE, 3)),
    Insn(6, VarLoad(ALOAD, 1)), Insn(7, AcquireCode), Insn(8, ReadCode),
    Insn(9, VarLoad(ALOAD, 1)), Insn(10, VarLoad(ALOAD, 2)), Insn(11, VarLoad(ALOAD, 3)),
    Insn(12, Constant(LDC)), Insn(13, Constant(LDC)), Insn(14, CallCode),
    Insn(15, VarStore(ASTORE, 4)), Insn(16, Constant(GETSTATIC)), Insn(17, VarLoad(ALOAD, 4)),
    Insn(18, PrintCode), Insn(19, VoidReturn)
  ]

  /** The expected rewrite: the acquiring call becomes a POP (discarding the
      context it consumed), the field read is gone, and the call becomes an
      invokedynamic named after the field, with the call's descriptor. */
  const Rewritten: seq<Insn> :=
    MainBody[..7] + [Insn(7, Pop)] + MainBody[9..14] + [Insn(14, SampleIndy)] + MainBody[15..]

  /** The abstract state before each instruction of `main`, and after the last. */
  const Trace: seq<State> := [
    State(Schedule([], None), Frame([Basic(Entry(0)), Basic(Entry(1)), Basic(Entry(2)), Basic(Entry(3)), Basic(Entry(4))], [])),
    State(Schedule([], None), Frame([Basic(Entry(0)), Basic(Entry(1)), Basic(Entry(2)), Basic(Entry(3)), Basic(Entry(4))], [Basic(ResultOf(0))])),
    State(Schedule([], None), Frame([Basic(Entry(0)), Basic(ResultOf(0)), Basic(Entry(2)), Basic(Entry(3)), Basic(Entry(4))], [])),
    State(Schedule([], None), Frame([Basic(Entry(0)), Basic(ResultOf(0)), Basic(Entry(2)), Basic(Entry(3)), Basic(Entry(4))], [Basic(ResultOf(2))])),
    State(Schedule([], None), Frame([Basic(Entry(0)), Basic(ResultOf(0)), Basic(ResultOf(2)), Basic(Entry(3)), Basic(Entry(4))], [])),
    State(Schedule([], None), Frame([Basic(Entry(0)), Basic(ResultOf(0)), Basic(ResultOf(2)), Basic(Entry(3)), Basic(Entry(4))], [Basic(ResultOf(4))])),
    State(Schedule([], None), Frame([Basic(Entry(0)), Basic(ResultOf(0)), Basic(ResultOf(2)), Basic(ResultOf(4)), Basic(Entry(4))], [])),
    State(Schedule([], None), Frame([Basic(Entry(0)), Basic(ResultOf(0)), Basic(ResultOf(2)), Basic(ResultOf(4)), Basic(Entry(4))], [Basic(ResultOf(0))])),
    State(Schedule([], Some([Replace(7, Pop)])), Frame([Basic(Entry(0)), Basic(ResultOf(0)), Basic(ResultOf(2)), Basic(ResultOf(4)), Basic(Entry(4))], [Sites])),
    State(Schedule([], Some([Replace(7, Pop), Remove(8)])), Frame([Basic(Entry(0)), Basic(ResultOf(0)), Basic(ResultOf(2)), Basic(ResultOf(4)), Basic(Entry(4))], [MethodName("some_method")])),
    State(Schedule([], Some([Replace(7, Pop), Remove(8)])), Frame([Basic(Entry(0)), Basic(ResultOf(0)), Basic(ResultOf(2)), Basic(ResultOf(4)), Basic(Entry(4))], [MethodName("some_method"), Basic(ResultOf(0))])),
    State(Schedule([], Some([Replace(7, Pop), Remove(8)])), Frame([Basic(Entry(0)), Basic(ResultOf(0)), Basic(ResultOf(2)), Basic(ResultOf(4)), Basic(Entry(4))], [MethodName("some_method"), Basic(ResultOf(0)), Basic(ResultOf(2))])),
    State(Schedule([], Some([Replace(7, Pop), Remove(8)])), Frame([Basic(Entry(0)), Basic(ResultOf(0)), Basic(ResultOf(2)), Basic(ResultOf(4)), Basic(Entry(4))], [MethodName("some_method"), Basic(ResultOf(0)), Basic(ResultOf(2)), Basic(ResultOf(4))])),
    State(Schedule([], Some([Replace(7, Pop), Remove(8)])), Frame([Basic(Entry(0)), Basic(ResultOf(0)), Basic(ResultOf(2)), Basic(ResultOf(4)), Basic(Entry(4))], [MethodName("some_method"), Basic(ResultOf(0)), Basic(ResultOf(2)), Basic(ResultOf(4)), Basic(ResultOf(12))])),
    State(Schedule([], Some([Replace(7, Pop), Remove(8)])), Frame([Basic(Entry(0)), Basic(ResultOf(0)), Basic(ResultOf(2)), Basic(ResultOf(4)), Basic(Entry(4))], [MethodName("some_method"), Basic(ResultOf(0)), Basic(ResultOf(2)), Basic(ResultOf(4)), Basic(ResultOf(12)), Basic(ResultOf(13))])),
    State(Schedule([Replace(7, Pop), Remove(8), Replace(14, SampleIndy)], None), Frame([Basic(Entry(0)), Basic(ResultOf(0)), Basic(ResultOf(2)), Basic(ResultOf(4)), Basic(Entry(4))], [Basic(Reference)])),
    State(Schedule([Replace(7, Pop), Remove(8), Replace(14, SampleIndy)], None), Frame([Basic(Entry(0)), Basic(ResultOf(0)), Basic(ResultOf(2)), Basic(ResultOf(4)), Basic(Reference)], [])),
    State(Schedule([Replace(7, Pop), Remove(8), Replace(14, SampleIndy)], None), Frame([Basic(Entry(0)), Basic(ResultOf(0)), Basic(ResultOf(2)), Basic(ResultOf(4)), Basic(Reference)], [Basic(ResultOf(16))])),
    State(Schedule([Replace(7, Pop), Remove(8), Replace(14, SampleIndy)], None), Frame([Basic(Entry(0)), Basic(ResultOf(0)), Basic(ResultOf(2)), Basic(ResultOf(4)), Basic(Reference)], [Basic(ResultOf(16)), Basic(Reference)])),
    State(Schedule([Replace(7, Pop), Remove(8), Replace(14, SampleIndy)], None), Frame([Basic(Entry(0)), Basic(ResultOf(0)), Basic(ResultOf(2)), Basic(ResultOf(4)), Basic(Reference)], [])),
    State(Schedule([Replace(7, Pop), Remove(8), Replace(14, SampleIndy)], None), Frame([Basic(Entry(0)), Basic(ResultOf(0)), Basic(ResultOf(2)), Basic(ResultOf(4)), Basic(Reference)], []))
  ]

  /** A run that follows a trace of states, one step per instruction. */
  lemma {:induction false} RunThrough(sts: seq<State>, insns: seq<Insn>)
    requires |sts| == |insns| + 1 && insns != []
    requires forall j :: 0 <= j < |insns| ==> Step(sts[j], insns[j]) == Ok(sts[j + 1])
    requires forall j :: 0 <= j < |insns| - 1 ==> !EndsBlock(insns[j])
    requires EndsBlock(insns[|insns| - 1])
    ensures Run(sts[0], insns) == Ok(sts[|insns|])
    decreases |insns|
  {
    if !EndsBlock(insns[0]) {
      RunThrough(sts[1..], insns[1..]);
    }
  }

  /** Lines 15 and 16: `context` and `caller` set to null. */
  lemma ContextCallerSteps(j: nat)
    requires 0 <= j < 4
    ensures Step(Trace[j], MainBody[j]) == Ok(Trace[j + 1])
  {
    match j {
      case 0 =>
        var r := Step(Trace[0], MainBody[0]);
        assert r.value.frame.stack == Trace[1].frame.stack;
        assert r.value.frame.locals == Trace[1].frame.locals;
      case 1 =>
        var r := Step(Trace[1], MainBody[1]);
        assert r.value.frame.stack == Trace[2].frame.stack;
        assert r.value.frame.locals == Trace[2].frame.locals;
      case 2 =>
        var r := Step(Trace[2], MainBody[2]);
        assert r.value.frame.stack == Trace[3].frame.stack;
        assert r.value.frame.locals == Trace[3].frame.locals;
      case 3 =>
        var r := Step(Trace[3], MainBody[3]);
        assert r.value.frame.stack == Trace[4].frame.stack;
        assert r.value.frame.locals == Trace[4].frame.locals;
    }
  }

  /** Line 17 and the load of `context` for the acquiring call. */
  lemma TargetLoadSteps(j: nat)
    requires 4 <= j < 7
    ensures Step(Trace[j], MainBody[j]) == Ok(Trace[j + 1])
  {
    match j {
      case 4 =>
        var r := Step(Trace[4], MainBody[4]);
        assert r.value.frame.stack == Trace[5].frame.stack;
        assert r.value.frame.locals == Trace[5].frame.locals;
      case 5 =>
        var r := Step(Trace[5], MainBody[5]);
        assert r.value.frame.stack == Trace[6].frame.stack;
        assert r.value.frame.locals == Trace[6].frame.locals;
      case 6 =>
        var r := Step(Trace[6], MainBody[6]);
        assert r.value.frame.stack == Trace[7].frame.stack;
        assert r.value.frame.locals == Trace[7].frame.locals;
    }
  }

  /** Line 18, first half: the acquiring call, the field read, and the loads of `context` and `caller`. */
  lemma AcquireReadSteps(j: nat)
    requires 7 <= j < 11
    ensures Step(Trace[j], MainBody[j]) == Ok(Trace[j + 1])
  {
    match j {
      case 7 =>
        var r := Step(Trace[7], MainBody[7]);
        assert r.value.frame.stack == Trace[8].frame.stack;
        assert r.value.frame.locals == Trace[8].frame.locals;
      case 8 =>
        var r := Step(Trace[8], MainBody[8]);
        assert r.value.schedule.current.value == Trace[9].schedule.current.value;
        assert r.value.frame.stack == Trace[9].frame.stack;
        assert r.value.frame.locals == Trace[9].frame.locals;
      case 9 =>
        var r := Step(Trace[9], MainBody[9]);
        assert r.value.frame.stack == Trace[10].frame.stack;
        assert r.value.frame.locals == Trace[10].frame.locals;
      case 10 =>
        var r := Step(Trace[10], MainBody[10]);
        assert r.value.frame.stack == Trace[11].frame.stack;
        assert r.value.frame.locals == Trace[11].frame.locals;
    }
  }

  /** Line 18, second half: the remaining arguments and the call. */
  lemma CallSteps(j: nat)
    requires 11 <= j < 15
    ensures Step(Trace[j], MainBody[j]) == Ok(Trace[j + 1])
  {
    match j {
      case 11 =>
        var r := Step(Trace[11], MainBody[11]);
        assert r.value.frame.stack == Trace[12].frame.stack;
        assert r.value.frame.locals == Trace[12].frame.locals;
      case 12 =>
        var r := Step(Trace[12], MainBody[12]);
        assert r.value.frame.stack == Trace[13].frame.stack;
        assert r.value.frame.locals == Trace[13].frame.locals;
      case 13 =>
        var r := Step(Trace[13], MainBody[13]);
        assert r.value.frame.stack == Trace[14].frame.stack;
        assert r.value.frame.locals == Trace[14].frame.locals;
      case 14 =>
        var r := Step(Trace[14], MainBody[14]);
        assert r.value.schedule.pending == Trace[15].schedule.pending;
        assert r.value.frame.stack == Trace[15].frame.stack;
        assert r.value.frame.locals == Trace[15].frame.locals;
    }
  }

  /** Line 19 and the return. */
  lemma EpilogueSteps(j: nat)
    requires 15 <= j < 20
    ensures Step(Trace[j], MainBody[j]) == Ok(Trace[j + 1])
  {
    match j {
      case 15 =>
        var r := Step(Trace[15], MainBody[15]);
        assert r.value.frame.stack == Trace[16].frame.stack;
        assert r.value.frame.locals == Trace[16].frame.locals;
      case 16 =>
        var r := Step(Trace[16], MainBody[16]);
        assert r.value.frame.stack == Trace[17].frame.stack;
        assert r.value.frame.locals == Trace[17].frame.locals;
      case 17 =>
        var r := Step(Trace[17], MainBody[17]);
        assert r.value.frame.stack == Trace[18].frame.stack;
        assert r.value.frame.locals == Trace[18].frame.locals;
      case 18 =>
        var r := Step(Trace[18], MainBody[18]);
        assert r.value.frame.stack == Trace[19].frame.stack;
        assert r.value.frame.locals == Trace[19].frame.locals;
      case 19 =>
        var r := Step(Trace[19], MainBody[19]);
        assert r.value.frame.stack == Trace[20].frame.stack;
        assert r.value.frame.locals == Trace[20].frame.locals;
    }
  }

  lemma SampleEdits()
    ensures Edits(MainBody, 5) == Ok([Replace(7, Pop), Remove(8), Replace(14, SampleIndy)])
  {
    forall j | 0 <= j < |MainBody| ensures Step(Trace[j], MainBody[j]) == Ok(Trace[j + 1]) {
      if j < 4 {
        ContextCallerSteps(j);
      } else if j < 7 {
        TargetLoadSteps(j);
      } else if j < 11 {
        AcquireReadSteps(j);
      } else if j < 15 {
        CallSteps(j);
      } else {
        EpilogueSteps(j);
      }
    }
    assert State(Initial, EntryFrame(5)) == Trace[0];
    RunThrough(Trace, MainBody);
  }

  lemma MainBodyIds()
    ensures |MainBody| == 20
    ensures forall i :: 0 <= i < |MainBody| ==> MainBody[i].id == i
  {
  }

  /** Every instruction of `main` has the shape its opcode calls for. */
  lemma MainBodyWellFormed()
    ensures forall i :: 0 <= i < |MainBody| ==> WellFormed(MainBody[i])
  {
  }

  /** No instruction of `s` has identity `t`. */
  lemma IdAbsent(s: seq<Insn>, t: InsnId)
    requires forall i :: 0 <= i < |s| ==> s[i].id != t
    ensures t !in IdSet(s)
  {
  }

  lemma SampleReplaceAcquire()
    ensures Replaced(MainBody, 7, Pop) == MainBody[..7] + [Insn(7, Pop)] + MainBody[8..]
  {
    var m := MainBody;
    MainBodyIds();
    assert m == m[..7] + [m[7]] + m[8..];
    IdAbsent(m[..7], 7);
    IdAbsent(m[8..], 7);
    ReplacedSplice(m[..7], m[7], m[8..], Pop);
  }

  lemma SampleRemoveRead()
    ensures Removed(MainBody[..7] + [Insn(7, Pop)] + MainBody[8..], 8) ==
      MainBody[..7] + [Insn(7, Pop)] + MainBody[9..]
  {
    var m := MainBody;
    MainBodyIds();
    var pre := m[..7] + [Insn(7, Pop)];
    assert m[8..] == [m[8]] + m[9..];
    assert pre + m[8..] == pre + [m[8]] + m[9..];
    IdAbsent(pre, 8);
    IdAbsent(m[9..], 8);
    RemovedSplice(pre, m[8], m[9..]);
  }

  lemma SampleReplaceCall()
    ensures Replaced(MainBody[..7] + [Insn(7, Pop)] + MainBody[9..], 14, SampleIndy) == Rewritten
  {
    var m := MainBody;
    MainBodyIds();
    var pre := m[..7] + [Insn(7, Pop)] + m[9..14];
    assert m[9..] == m[9..14] + [m[14]] + m[15..];
    assert m[..7] + [Insn(7, Pop)] + m[9..] == pre + [m[14]] + m[15..];
    IdAbsent(pre, 14);
    IdAbsent(m[15..], 14);
    ReplacedSplice(pre, m[14], m[15..], SampleIndy);
  }

  lemma ApplyThree(s: seq<Insn>, e1: Edit, e2: Edit, e3: Edit)
    ensures ApplyEdits(s, [e1, e2, e3]) == ApplyEdit(ApplyEdit(ApplyEdit(s, e1), e2), e3)
  {
    assert [e1, e2, e3][1..] == [e2, e3];
    assert [e2, e3][1..] == [e3];
    var s1 := ApplyEdit(s, e1);
    var s2 := ApplyEdit(s1, e2);
    assert ApplyEdits(s, [e1, e2, e3]) == ApplyEdits(s1, [e2, e3]);
    assert ApplyEdits(s1, [e2, e3]) == ApplyEdits(s2, [e3]);
    assert ApplyEdits(s2, [e3]) == ApplyEdits(ApplyEdit(s2, e3), []);
  }

  /** The three edits replace the acquiring call, drop the field read and
      replace the call, and leave every other instruction alone. */
  lemma SampleApply()
    ensures ApplyEdits(MainBody, [Replace(7, Pop), Remove(8), Replace(14, SampleIndy)]) == Rewritten
  {
    ApplyThree(MainBody, Replace(7, Pop), Remove(8), Replace(14, SampleIndy));
    SampleReplaceAcquire();
    SampleRemoveRead();
    SampleReplaceCall();
  }

  /** Line 18 is rewritten into POP and invokedynamic; the body loses exactly
      its `GETFIELD`. */
  lemma SampleRewrite()
    ensures Transform(MainBody, 5) == Ok(Rewritten)
    ensures |Rewritten| == |MainBody| - 1
    ensures forall i :: 0 <= i < |Rewritten| ==> !Rewritten[i].code.GetField?
  {
    SampleEdits();
    SampleApply();
    RewrittenLacksGetField();
  }

  lemma RewrittenLacksGetField()
    ensures forall i :: 0 <= i < |Rewritten| ==> !Rewritten[i].code.GetField?
  {
    assert forall j :: 0 <= j < |MainBody| && j != 8 ==> !MainBody[j].code.GetField?;
    forall i | 0 <= i < |Rewritten| ensures !Rewritten[i].code.GetField? {
      if i < 7 {
        assert Rewritten[i] == MainBody[i];
      } else if 7 < i < 13 || 13 < i {
        assert Rewritten[i] == MainBody[i + 1];
      }
    }
  }

  /** A body whose last instruction neither returns nor throws: the analysis
      runs off its end and fails. */
  lemma FallingOffFails()
    ensures Edits([Insn(0, Constant(ACONST_NULL))], 0) == Err(FallsOffEnd)
  {
    var st := State(Initial, EntryFrame(0));
    assert Step(st, Insn(0, Constant(ACONST_NULL))).Ok?;
    assert [Insn(0, Constant(ACONST_NULL))][1..] == [];
  }

  /** `athrow` ends the block as a return does: the instructions after it are
      never executed. */
  lemma ThrowEndsBody()
    ensures Edits([Insn(0, Constant(ACONST_NULL)), Insn(1, UnaryOp(ATHROW, false)), Insn(2, Pop)], 0) == Ok([])
  {
    var insns := [Insn(0, Constant(ACONST_NULL)), Insn(1, UnaryOp(ATHROW, false)), Insn(2, Pop)];
    var st := State(Initial, EntryFrame(0));
    var st1 := Step(st, insns[0]).value;
    assert st1.frame.stack == [Basic(ResultOf(0))];
    assert insns[1..][0] == insns[1];
    assert Run(st1, insns[1..]) == Step(st1, insns[1]);
  }
}

=== FILE: wrappers.dfy ===
/** Stock failure-carrying datatypes used across the model. */
module Wrappers {
  /** `None` stands for a Java `null` reference. */
  datatype Option<T> = None | Some(value: T)

  datatype Result<T, E> = Ok(value: T) | Err(error: E)
}
